=== FILE: README.md ===
# QuickBill-POS billing core in Dafny

This project models the billing core of QuickBill-POS, a point-of-sale app for a
small biryani shop. It covers five parts:

- the pricing engine: line totals, the subtotal, the rounded total, price and
  item-name formatting, and the add-on summary;
- the order builder: an immutable `Order` that every operation returns anew, with
  its totals recomputed;
- the receipt templates: the ESC/POS printer text and the plain-text preview;
- bill numbering and bill saving: the `daily_counter` table is a map from a
  day key to the last counter issued that day;
- the menu catalog: twelve items, six add-ons, and the two lookups over them.

Every operation is a pure function over datatypes (`types.dfy`). Clock readings,
the generated line id and the database row id are parameters. Two modules are
generic support: `Seqs` (filter, map, index search, sums, flat-map) and `Text`
(digits, padding, join and split). `Scenarios` works concrete orders through the
model.

Behaviour of the code that is easy to misread:

- the bill prefix is `AB` (`config/constants.ts`), not `BP` as the comment on the
  format in `queries.ts` says;
- a receipt item line prints base price × quantity, so a full Chicken Biryani
  with one Raita prints ₹180 on its line while the total is ₹200;
- the day key is the UTC date of `toISOString`, which can differ from the local
  date;
- `padStart` never cuts a longer text; `padRight`/`padLeft` cut to the width,
  and a negative width gives the empty string, as `substring(0, w)` does.

## Model

| member | source | states |
|---|---|---|
| Pricing.CalculateItemTotal | src/services/pricing/pricingEngine.ts:4-12 | the left fold from 0 equals base price × quantity plus the reference sum of price × quantity over the add-ons |
| Pricing.CalculateSubtotal | src/services/pricing/pricingEngine.ts:15-17 | the left-to-right accumulation of line totals equals the reference sum of the line totals |
| Pricing.SubtotalAdditive | src/services/pricing/pricingEngine.ts:15-17 | the subtotal of no lines is 0, of one line is its line total, and it adds over concatenated line lists |
| Pricing.Round | src/services/pricing/pricingEngine.ts:22 | the rounded value is the integer within half of the input, an exact half rounding up |
| Pricing.RoundExamples | src/services/pricing/pricingEngine.ts:22 | 99.5 rounds to 100, 99.4 to 99, -2.5 to -2 and -0.5 to 0 |
| Pricing.CalculateTotal | src/services/pricing/pricingEngine.ts:20-23 | for whole-rupee amounts the rounded total equals the subtotal |
| Pricing.FormatPrice | src/services/pricing/pricingEngine.ts:26-28 | the text is the rupee sign then the canonical decimal digits of the amount (no leading zero except for 0 itself, after a minus sign when negative), with no newline |
| Pricing.FormatItemName | src/services/pricing/pricingEngine.ts:31-36 | the name unchanged without a portion, else the name followed by " (Full)" or " (Half)" |
| Pricing.PortionNameSuffix | src/services/pricing/pricingEngine.ts:31-36 | the name of a line with a portion is the name of the same line without a portion, followed by " (Full)" or " (Half)" |
| Pricing.QuantitySuffix | src/services/pricing/pricingEngine.ts:44 | the suffix is non-empty exactly when the quantity exceeds one, and is then " ×q" |
| Pricing.SummaryEntry | src/services/pricing/pricingEngine.ts:44 | an entry is "+ ", the name, then " ×q" exactly when q > 1 |
| Pricing.GetAddOnsSummary | src/services/pricing/pricingEngine.ts:39-46 | no add-ons, or none with a positive quantity, give the empty summary |
| Pricing.SummaryEntries | src/services/pricing/pricingEngine.ts:39-46 | splitting a summary at newlines gives back the entries of the selected add-ons in input order |
| OrderBuilder.CreateEmptyOrder | src/services/order/orderBuilder.ts:10-15 | the empty order is valid, dine-in, with no lines and zero totals |
| OrderBuilder.RecalculateOrder | src/services/order/orderBuilder.ts:113-117 | lines and order type are kept and the totals agree with the pricing engine |
| OrderBuilder.PortionPrice | src/services/order/orderBuilder.ts:24-26 | the unit price is always a listed price of the item: the full price unless a half portion is asked for and a non-zero half price is listed (negative included, as JavaScript truthiness allows), in which case it is the half price; a listed half price of 0 gives the full price |
| OrderBuilder.AddItemToOrder | src/services/order/orderBuilder.ts:18-61 | a simple item bumps the quantity of the first matching line and changes nothing else; an item with add-ons, or one without a match, appends one line of quantity 1 priced for its portion |
| OrderBuilder.AddPreservesValid | src/services/order/orderBuilder.ts:18-61 | adding keeps consistent totals, positive quantities, selected add-ons and distinct line ids, and leaves the order non-empty |
| OrderBuilder.SimpleItemMerges | src/services/order/orderBuilder.ts:29-44 | adding a simple item twice gives one new line of quantity 2 carrying the first id |
| OrderBuilder.AddOnItemsNeverMerge | src/services/order/orderBuilder.ts:38-58 | adding an add-on item twice gives two new lines, each of quantity 1 |
| OrderBuilder.UpdateItemQuantity | src/services/order/orderBuilder.ts:64-78 | a quantity of zero or less is a removal; otherwise only the quantity of the matching lines changes |
| OrderBuilder.UpdateQuantityPreservesValid | src/services/order/orderBuilder.ts:64-78 | changing a quantity keeps the order invariant |
| OrderBuilder.RemoveItemFromOrder | src/services/order/orderBuilder.ts:81-84 | the id is gone afterwards, every kept line was in the order, and every line with another id is kept |
| OrderBuilder.RemovePreservesValid | src/services/order/orderBuilder.ts:81-84 | removing keeps the order invariant |
| OrderBuilder.RemoveIdempotent | src/services/order/orderBuilder.ts:81-84 | removing the same id twice equals removing it once |
| OrderBuilder.RemoveKeepsOrder | src/services/order/orderBuilder.ts:82 | removal works piecewise over any split of the lines, so relative order is kept |
| OrderBuilder.UnknownIdIsNoOp | src/services/order/orderBuilder.ts:73-98 | an id of no line leaves the lines unchanged under removal and under both updates |
| OrderBuilder.SetAddOnQuantity | src/services/order/orderBuilder.ts:96-98 | the add-on takes quantity max(0, q), add-ons at zero are dropped, and the others are kept unchanged |
| OrderBuilder.SetAddOnQuantityConcat | src/services/order/orderBuilder.ts:96-98 | the updated list keeps list order: it is computed piecewise over any split, and a single add-on becomes itself with quantity max(0, q) when its id matches (name and price unchanged), kept only when its quantity is positive |
| OrderBuilder.UpdateAddOnQuantity | src/services/order/orderBuilder.ts:87-104 | only the add-ons of the matching lines change; other lines are untouched |
| OrderBuilder.UpdateAddOnPreservesValid | src/services/order/orderBuilder.ts:87-104 | changing an add-on quantity keeps the order invariant |
| OrderBuilder.SetOrderType | src/services/order/orderBuilder.ts:107-110 | only the order type changes |
| OrderBuilder.SetOrderTypePreservesValid | src/services/order/orderBuilder.ts:107-110 | setting the order type keeps the order invariant |
| OrderBuilder.ClearOrder | src/services/order/orderBuilder.ts:120 | clearing gives a valid, empty dine-in order |
| OrderBuilder.IsOrderEmpty | src/services/order/orderBuilder.ts:113-123 | an order is empty exactly when it has no lines, and an empty order whose totals are consistent has zero subtotal and total |
| Templates.Line | src/services/printer/templates.ts:45 | a rule is 32 copies of its character |
| Templates.PadRight | src/services/printer/templates.ts:46-47 | the result has the field width, holding the text then spaces, cut when longer |
| Templates.PadLeft | src/services/printer/templates.ts:48-49 | the result has the field width, spaces then the text, and a longer text is cut from the right |
| Templates.FormatItemLine | src/services/printer/templates.ts:52-57 | the line ends with " ×q ₹p", the name column holds the padded or cut name, and the line is 32 wide when quantity and price fit |
| Templates.ItemLineWidth | src/services/printer/templates.ts:52-57 | every item line with a quantity below 10^10 and a price below 10^18 is exactly 32 wide |
| Templates.FormatAddOnLine | src/services/printer/templates.ts:60-62 | the line is "  + " and the name, followed by " ×q" exactly when q > 1 |
| Templates.AddOnLineIsIndentedSummaryEntry | src/services/printer/templates.ts:60-62 | a receipt add-on line is the pricing engine's summary entry indented by two spaces |
| Templates.ItemLinesConcat | src/services/printer/templates.ts:81-94 | the item section is laid out piecewise in bill order, one block per line |
| Templates.ItemLineOmitsAddOnCharges | src/services/printer/templates.ts:81-94 | an item line prints the line total minus its add-on charges, followed by one line per selected add-on |
| Templates.TotalLine | src/services/printer/templates.ts:103-104 | the total line is 32 wide: spaces, then "TOTAL: " and the formatted total |
| Templates.OrderTypeTagPlaced | src/services/printer/templates.ts:134-137 | the printer text carries the order-type tag in bold on its own line, and the preview carries it right-aligned to column 21 |
| Templates.GenerateReceipt | src/services/printer/templates.ts:65-151 | the printer text starts with the printer-initialise command and ends with the partial-cut command |
| Templates.ReceiptSections | src/services/printer/templates.ts:65-151 | joining all pushed pieces with no separator equals joining the header, the item section and the footer separately and concatenating them |
| Templates.PrinterItemText | src/services/printer/templates.ts:79-98 | the printer text embeds the item lines, each followed by a line feed, between header and footer |
| Templates.GeneratePlainReceipt | src/services/printer/templates.ts:154-199 | the preview opens with a line break (its first line is empty) and closes with one (its last line is empty) |
| Templates.PlainItemText | src/services/printer/templates.ts:154-199 | the preview embeds the same item lines between its header and footer lines |
| Templates.PlainReceiptLines | src/services/printer/templates.ts:154-199 | splitting the preview at newlines gives back exactly its lines, when no input text holds a newline |
| Queries.DateKey | src/services/database/queries.ts:8 | the day key is the part of the timestamp before its first `T`, or all of it when there is none |
| Queries.CompactDate | src/services/database/queries.ts:32 | the compacted day holds no dash |
| Queries.CompactFields | src/services/database/queries.ts:32 | removing the dashes from y-m-d gives ymd |
| Queries.IsoDateKey | src/services/database/queries.ts:8 | the day key of an ISO timestamp is its first ten characters |
| Queries.IsoDateField | src/services/database/queries.ts:8-32 | the date field of a bill number is the eight digits YYYYMMDD |
| Queries.CounterText | src/services/database/queries.ts:33 | the counter text is the counter's own text behind as many zeros as make three characters, never cut |
| Queries.CounterTextDigits | src/services/database/queries.ts:33 | the counter text has at least three digits, exactly three below 1000, reads back as the counter, and is never cut |
| Queries.FormatBillNumber | src/services/database/queries.ts:31-34 | a bill number is `AB-`, then the dash-free day field, a dash and the counter text |
| Queries.GetNextBillNumber | src/services/database/queries.ts:6-35 | a day without a counter issues 1, otherwise the stored counter plus one; the table stores it and other days are untouched |
| Queries.BillNumberInjective | src/services/database/queries.ts:31-34 | equal bill numbers have equal day fields and equal counters |
| Queries.ConsecutiveAllocations | src/services/database/queries.ts:6-35 | two allocations on one day issue N and N + 1, under different bill numbers |
| Queries.SaveBill | src/services/database/queries.ts:38-63 | the saved bill copies the draft's fields, takes the allocated number, row id and creation time, and the counter table advances |
| Queries.SavedBillsDistinct | src/services/database/queries.ts:38-63 | two bills saved in a row on one day get different numbers |
| Menu.ItemsInCategory | src/config/menu.ts:158-160 | the result holds catalog items of that category only, and every one of them |
| Menu.AddOnsFor | src/config/menu.ts:163-165 | the result holds catalog add-ons that list the item only, and every one of them |
| Menu.AddOnsForConcat | src/config/menu.ts:163-165 | the add-ons come out in list order: the lookup works piecewise over any split, and one add-on is kept exactly when it lists the item |
| Menu.GetItemsByCategory | src/config/menu.ts:11-160 | the beverages are the first four catalog items, the snacks the next four and the biryanis the last four, in catalog order |
| Menu.GetAddOnsForItem | src/config/menu.ts:118-165 | an item that is not a biryani has no add-ons, and every biryani is offered extra rice, raita and extra gravy |
| Menu.CatalogPrices | src/config/menu.ts:11-155 | a half price is listed exactly for portioned items, and all prices are positive |
| Menu.CatalogIds | src/config/menu.ts:11-155 | item and add-on ids are unique, and every id an add-on applies to names a catalog item |
| Menu.AddOnFlagMatchesAddOns | src/config/menu.ts:11-165 | an item is flagged as taking add-ons exactly when some add-on applies to it |
| Scenarios.TeaTwice | src/services/order/orderBuilder.ts:18-61 | tea added twice to an empty order is one line of quantity 2 at ₹15, totalling 30 |
| Scenarios.BiryaniWithRaita | src/services/order/orderBuilder.ts:18-61 | a full Chicken Biryani with one Raita has base price 180 and totals 200 |
| Scenarios.HalfPortionPrice | src/services/order/orderBuilder.ts:24-26 | a half Mutton Biryani is priced at its half price, 140 |
| Scenarios.FirstBillsOfDay | src/services/database/queries.ts:6-35 | the first two bills of a fresh day are AB-YYYYMMDD-001 and AB-YYYYMMDD-002 |
| Text.PadStart | src/services/database/queries.ts:33 | padding on the left up to the target length, never cutting a longer text |
| Text.NatToString | src/services/pricing/pricingEngine.ts:27 | the decimal text of a natural number has no leading zero and reads back as the number |
| Text.SplitJoin | src/services/pricing/pricingEngine.ts:45 | splitting a newline-joined list of newline-free parts gives the parts back |

## Left out

- The UI, the printer transport, authentication and the SQLite and JSON plumbing: they are I/O around the core.
- `getTodaysBills`, `getDailySales` and `getBillById`: they are database reads outside the core.
- Randomness and the clock: `generateId` is the `freshId` parameter, assumed unused by the order; `new Date()` readings are parameters.
- The locale date and time formatting of receipts: the rendered date and time strings are parameters.
- Concurrency: two `getNextBillNumber` calls racing on the same day are not modelled; allocations are sequential.
- Floating point: amounts are whole rupees, so `toFixed(0)` and `Math.round` are modelled on integers and on exact reals, not on IEEE doubles.
- Integer width: prices and counters are unbounded integers, with no 2^53 limit.
- Strings are sequences of characters: UTF-16 surrogate pairs are not modelled; the rupee sign, ×, and the heavy rule are single characters.
- Unused ESC/POS commands (`ALIGN_RIGHT`, `DOUBLE_WIDTH_ON`, the underline and line-spacing commands, `CUT_PAPER`, `OPEN_DRAWER`), the `CATEGORIES` display list and `CURRENCY_SYMBOL`: no modelled operation uses them.
- Default arguments: `shopName` of both receipt templates (the settings' shop name, `AnnaBill`) and `portion`/`addOns` of `addItemToOrder` (no portion, no add-ons) are explicit parameters; callers pass them.
- Pricing.CalculateTotal: states equality with the subtotal only for whole-rupee amounts, because amounts are integers here.
- OrderBuilder.AddItemToOrder: requires a fresh line id, where the source relies on a random id being unique.

=== FILE: menu.dfy ===
/** The menu catalog: twelve items in three categories and six biryani add-ons,
    with the two catalog lookups. */
module Menu {
  import opened Types
  import Seqs

  const MENU_ITEMS: seq<MenuItem> := [
    MenuItem("tea", "Tea", Beverages, 15, None, false, false),
    MenuItem("coffee", "Coffee", Beverages, 20, None, false, false),
    MenuItem("cold_coffee", "Cold Coffee", Beverages, 40, None, false, false),
    MenuItem("lassi", "Lassi", Beverages, 30, None, false, false),
    MenuItem("samosa", "Samosa", Snacks, 15, None, false, false),
    MenuItem("cutlet", "Cutlet", Snacks, 20, None, false, false),
    MenuItem("puff", "Veg Puff", Snacks, 25, None, false, false),
    MenuItem("pakora", "Pakora", Snacks, 30, None, false, false),
    MenuItem("chicken_biryani", "Chicken Biryani", Biryani, 180, Some(100), true, true),
    MenuItem("mutton_biryani", "Mutton Biryani", Biryani, 250, Some(140), true, true),
    MenuItem("veg_biryani", "Veg Biryani", Biryani, 120, Some(70), true, true),
    MenuItem("egg_biryani", "Egg Biryani", Biryani, 140, Some(80), true, true)
  ]

  const ALL_BIRYANIS: seq<string> := ["chicken_biryani", "mutton_biryani", "veg_biryani", "egg_biryani"]

  const ADD_ONS: seq<AddOn> := [
    AddOn("extra_rice", "Extra Rice", 30, ALL_BIRYANIS),
    AddOn("extra_chicken", "Extra Chicken", 50, ["chicken_biryani"]),
    AddOn("extra_mutton", "Extra Mutton", 70, ["mutton_biryani"]),
    AddOn("raita", "Raita", 20, ALL_BIRYANIS),
    AddOn("gravy", "Extra Gravy", 25, ALL_BIRYANIS),
    AddOn("egg", "Egg", 15, ["chicken_biryani", "mutton_biryani", "veg_biryani"])
  ]

  /** `getItemsByCategory`, over the catalog: the catalog is laid out by category,
      so each category is one consecutive third of it, in catalog order. */
  function GetItemsByCategory(category: Category): (r: seq<MenuItem>)
    ensures r == match category
                 case Beverages => MENU_ITEMS[..4]
                 case Snacks => MENU_ITEMS[4..8]
                 case Biryani => MENU_ITEMS[8..]
  {
    CategoryThird(category);
    ItemsInCategory(MENU_ITEMS, category)
  }

  /** The filter behind `getItemsByCategory`: exactly the items of that category,
      in catalog order. */
  function ItemsInCategory(items: seq<MenuItem>, category: Category): (r: seq<MenuItem>)
    ensures forall i :: 0 <= i < |r| ==> r[i] in items && r[i].category == category
    ensures forall i :: 0 <= i < |items| && items[i].category == category ==> items[i] in r
  {
    Seqs.Filter(items, InCategory(category))
  }

  /** The test `getItemsByCategory` filters by. */
  function InCategory(category: Category): MenuItem -> bool
  {
    (m: MenuItem) => m.category == category
  }

  /** `getAddOnsForItem`, over the add-on list: only biryanis have add-ons, and
      every biryani is offered extra rice, raita and extra gravy. */
  function GetAddOnsForItem(itemId: string): (r: seq<AddOn>)
    ensures itemId !in ALL_BIRYANIS ==> r == []
    ensures itemId in ALL_BIRYANIS ==> ADD_ONS[0] in r && ADD_ONS[3] in r && ADD_ONS[4] in r
  {
    NoAddOnsOutsideBiryanis(itemId);
    SharedAddOns(itemId);
    AddOnsFor(ADD_ONS, itemId)
  }

  /** An id that is not a biryani is listed by no add-on. */
  lemma NoAddOnsOutsideBiryanis(itemId: string)
    ensures itemId !in ALL_BIRYANIS ==> AddOnsFor(ADD_ONS, itemId) == []
  {
    if itemId !in ALL_BIRYANIS {
      forall j | 0 <= j < |ADD_ONS|
        ensures !AppliesTo(itemId)(ADD_ONS[j])
      {
        assert forall t :: 0 <= t < |ADD_ONS[j].applicableTo| ==> ADD_ONS[j].applicableTo[t] in ALL_BIRYANIS;
      }
      Seqs.FilterNonePass(ADD_ONS, AppliesTo(itemId));
    }
  }

  /** Extra rice, raita and extra gravy apply to every biryani. */
  lemma SharedAddOns(itemId: string)
    ensures itemId in ALL_BIRYANIS ==>
      var r := AddOnsFor(ADD_ONS, itemId);
      ADD_ONS[0] in r && ADD_ONS[3] in r && ADD_ONS[4] in r
  {
    if itemId in ALL_BIRYANIS {
      assert ADD_ONS[0].applicableTo == ALL_BIRYANIS;
      assert ADD_ONS[3].applicableTo == ALL_BIRYANIS;
      assert ADD_ONS[4].applicableTo == ALL_BIRYANIS;
    }
  }

  /** The filter behind `getAddOnsForItem`: exactly the add-ons listing the item id,
      in list order. */
  function AddOnsFor(addOns: seq<AddOn>, itemId: string): (r: seq<AddOn>)
    ensures forall i :: 0 <= i < |r| ==> r[i] in addOns && itemId in r[i].applicableTo
    ensures forall i :: 0 <= i < |addOns| && itemId in addOns[i].applicableTo ==> addOns[i] in r
  {
    Seqs.Filter(addOns, AppliesTo(itemId))
  }

  /** The add-ons of a list come out in list order: the lookup is computed
      piecewise over any split, and one add-on is kept exactly when it lists the id. */
  lemma AddOnsForConcat(a: seq<AddOn>, b: seq<AddOn>, itemId: string)
    ensures AddOnsFor(a + b, itemId) == AddOnsFor(a, itemId) + AddOnsFor(b, itemId)
    ensures |a| == 1 ==> AddOnsFor(a, itemId) == if itemId in a[0].applicableTo then a else []
  {
    Seqs.FilterConcat(a, b, AppliesTo(itemId));
    if |a| == 1 {
      assert a[1..] == [];
    }
  }

  /** The test `getAddOnsForItem` filters by. */
  function AppliesTo(itemId: string): AddOn -> bool
  {
    (a: AddOn) => itemId in a.applicableTo
  }

  /** The items of one category are one third of the catalog. */
  lemma CategoryThird(category: Category)
    ensures ItemsInCategory(MENU_ITEMS, category)
         == match category
            case Beverages => MENU_ITEMS[..4]
            case Snacks => MENU_ITEMS[4..8]
            case Biryani => MENU_ITEMS[8..]
  {
    var a, b, c := CatalogThirds();
    var which := match category case Beverages => 0 case Snacks => 1 case Biryani => 2;
    CategorySlices(category, a, b, c, which);
  }

  /** The catalog's three thirds and the category of each. */
  lemma CatalogThirds() returns (a: seq<MenuItem>, b: seq<MenuItem>, c: seq<MenuItem>)
    ensures a == MENU_ITEMS[..4] && b == MENU_ITEMS[4..8] && c == MENU_ITEMS[8..]
    ensures MENU_ITEMS == a + b + c
    ensures forall i :: 0 <= i < |a| ==> a[i].category == Beverages
    ensures forall i :: 0 <= i < |b| ==> b[i].category == Snacks
    ensures forall i :: 0 <= i < |c| ==> c[i].category == Biryani
  {
    a, b, c := MENU_ITEMS[..4], MENU_ITEMS[4..8], MENU_ITEMS[8..];
  }

  /** Filtering three consecutive slices by category keeps exactly the slice `which`
      whose items all have that category. */
  lemma CategorySlices(category: Category, a: seq<MenuItem>, b: seq<MenuItem>, c: seq<MenuItem>, which: nat)
    requires which < 3
    requires forall i :: 0 <= i < |a| ==> (a[i].category == category <==> which == 0)
    requires forall i :: 0 <= i < |b| ==> (b[i].category == category <==> which == 1)
    requires forall i :: 0 <= i < |c| ==> (c[i].category == category <==> which == 2)
    ensures Seqs.Filter(a + b + c, InCategory(category)) == (if which == 0 then a else if which == 1 then b else c)
  {
    var p := InCategory(category);
    Seqs.FilterConcat(a + b, c, p);
    Seqs.FilterConcat(a, b, p);
    if which == 0 { Seqs.FilterAllPass(a, p); } else { Seqs.FilterNonePass(a, p); }
    if which == 1 { Seqs.FilterAllPass(b, p); } else { Seqs.FilterNonePass(b, p); }
    if which == 2 { Seqs.FilterAllPass(c, p); } else { Seqs.FilterNonePass(c, p); }
  }

  /** A half price is listed exactly for the items sold in portions, and every price
      is a positive whole number. */
  lemma CatalogPrices()
    ensures forall i :: 0 <= i < |MENU_ITEMS| ==>
      && (MENU_ITEMS[i].halfPrice.Some? <==> MENU_ITEMS[i].hasPortions)
      && MENU_ITEMS[i].fullPrice > 0
      && (MENU_ITEMS[i].halfPrice.Some? ==> MENU_ITEMS[i].halfPrice.value > 0)
    ensures forall j :: 0 <= j < |ADD_ONS| ==> ADD_ONS[j].price > 0
  {
  }

  /** Item ids and add-on ids are unique, and every id an add-on applies to names a
      catalog item. */
  lemma CatalogIds()
    ensures forall i, k :: 0 <= i < k < |MENU_ITEMS| ==> MENU_ITEMS[i].id != MENU_ITEMS[k].id
    ensures forall j, k :: 0 <= j < k < |ADD_ONS| ==> ADD_ONS[j].id != ADD_ONS[k].id
    ensures forall j, t :: 0 <= j < |ADD_ONS| && 0 <= t < |ADD_ONS[j].applicableTo| ==>
      IsItemId(ADD_ONS[j].applicableTo[t])
  {
    AddOnTargetsListed();
  }

  /** `x` is the id of some catalog item. */
  predicate IsItemId(x: string) {
    exists i :: 0 <= i < |MENU_ITEMS| && MENU_ITEMS[i].id == x
  }

  /** Every id an add-on applies to names a catalog item. */
  lemma AddOnTargetsListed()
    ensures forall j, t :: 0 <= j < |ADD_ONS| && 0 <= t < |ADD_ONS[j].applicableTo| ==>
      IsItemId(ADD_ONS[j].applicableTo[t])
  {
    forall j, t | 0 <= j < |ADD_ONS| && 0 <= t < |ADD_ONS[j].applicableTo|
      ensures IsItemId(ADD_ONS[j].applicableTo[t])
    {
      assert ADD_ONS[j].applicableTo[t] in ALL_BIRYANIS;
      BiryaniListed(ADD_ONS[j].applicableTo[t]);
    }
  }

  /** Each biryani id names one of the last four catalog items. */
  lemma BiryaniListed(x: string)
    ensures x in ALL_BIRYANIS ==> IsItemId(x)
  {
    if x in ALL_BIRYANIS {
      var k :| 0 <= k < 4 && ALL_BIRYANIS[k] == x;
      assert MENU_ITEMS[8 + k].id == x;
    }
  }

  /** An item is flagged as taking add-ons exactly when some add-on applies to it. */
  lemma AddOnFlagMatchesAddOns()
    ensures forall i :: 0 <= i < |MENU_ITEMS| ==>
      (MENU_ITEMS[i].hasAddOns <==> |GetAddOnsForItem(MENU_ITEMS[i].id)| > 0)
  {
    forall i | 0 <= i < |MENU_ITEMS|
      ensures MENU_ITEMS[i].hasAddOns <==> |GetAddOnsForItem(MENU_ITEMS[i].id)| > 0
    {
      var id := MENU_ITEMS[i].id;
      if i < 8 {
        assert !MENU_ITEMS[i].hasAddOns;
        assert id !in ALL_BIRYANIS;
      } else {
        assert MENU_ITEMS[i].hasAddOns;
        assert id == ALL_BIRYANIS[i - 8];
      }
    }
  }
}

=== FILE: order_builder.dfy ===
/** The order builder: an order is a value, and every operation returns a new order
    whose subtotal and total are recomputed from its lines. */
module OrderBuilder {
  import opened Types
  import opened Pricing
  import Seqs

  /** The totals are exactly the pricing functions over the lines. */
  predicate TotalsConsistent(o: Order) {
    o.subtotal == CalculateSubtotal(o.items) && o.total == CalculateTotal(o.items)
  }

  predicate QuantitiesPositive(items: seq<OrderItem>) {
    forall i :: 0 <= i < |items| ==> items[i].quantity >= 1
  }

  predicate AddOnsSelected(items: seq<OrderItem>) {
    forall i, j :: 0 <= i < |items| && 0 <= j < |items[i].addOns| ==> items[i].addOns[j].quantity > 0
  }

  predicate DistinctIds(items: seq<OrderItem>) {
    forall i, j :: 0 <= i < j < |items| ==> items[i].id != items[j].id
  }

  function LineIds(items: seq<OrderItem>): set<string> {
    set i | 0 <= i < |items| :: items[i].id
  }

  /** The invariant every order built by these operations keeps. */
  predicate Valid(o: Order) {
    && TotalsConsistent(o)
    && QuantitiesPositive(o.items)
    && AddOnsSelected(o.items)
    && DistinctIds(o.items)
  }

  /** `createEmptyOrder`: a dine-in order with no lines and zero totals. */
  function CreateEmptyOrder(): (o: Order)
    ensures Valid(o) && IsOrderEmpty(o)
    ensures o.orderType == DineIn && o.subtotal == 0 && o.total == 0
  {
    Order([], DineIn, 0, 0)
  }

  /** `recalculateOrder`: the same lines and order type, with fresh totals. */
  function RecalculateOrder(o: Order): (r: Order)
    ensures r.items == o.items && r.orderType == o.orderType
    ensures TotalsConsistent(r)
  {
    o.(subtotal := CalculateSubtotal(o.items), total := CalculateTotal(o.items))
  }

  /** The unit price for a portion: the half price only for a half portion whose
      half price is present and non-zero (a JavaScript truthiness test). */
  function ResolvePrice(menuItem: MenuItem, portion: Option<Portion>): int {
    if portion == Some(Half) && menuItem.halfPrice.Some? && menuItem.halfPrice.value != 0
    then menuItem.halfPrice.value
    else menuItem.fullPrice
  }

  /** The unit price is always one of the item's listed prices: the full price
      unless a half portion is asked for and a non-zero half price is listed (a
      listed half price of 0 is falsy, so the full price is charged). */
  lemma PortionPrice(menuItem: MenuItem, portion: Option<Portion>)
    ensures var p := ResolvePrice(menuItem, portion);
      && (p == menuItem.fullPrice || (menuItem.halfPrice.Some? && p == menuItem.halfPrice.value))
      && (portion != Some(Half) ==> p == menuItem.fullPrice)
      && (menuItem.halfPrice.None? ==> p == menuItem.fullPrice)
      && (portion == Some(Half) && menuItem.halfPrice.Some? && menuItem.halfPrice.value != 0 ==>
            p == menuItem.halfPrice.value)
      && (menuItem.halfPrice == Some(0) ==> p == menuItem.fullPrice)
  {
  }

  /** A line that a simple (add-on-free) menu item merges into. */
  predicate Mergeable(line: OrderItem, menuItem: MenuItem, portion: Option<Portion>) {
    line.menuItemId == menuItem.id && line.portion == portion && !menuItem.hasAddOns
  }

  /** The search `addItemToOrder` runs over the existing lines. */
  function MergesWith(menuItem: MenuItem, portion: Option<Portion>): OrderItem -> bool {
    (l: OrderItem) => Mergeable(l, menuItem, portion)
  }

  /** `addItemToOrder`. A simple item bumps the quantity of the first line with the
      same menu item and portion; otherwise one new line of quantity 1 is appended.
      `freshId` stands for the generated line id, which is not yet in use. */
  function AddItemToOrder(o: Order, menuItem: MenuItem, portion: Option<Portion>,
                          addOns: seq<OrderItemAddOn>, freshId: string): (r: Order)
    requires freshId !in LineIds(o.items)
    ensures TotalsConsistent(r) && r.orderType == o.orderType
    ensures var k := Seqs.IndexWhere(o.items, MergesWith(menuItem, portion));
      k >= 0 ==>
        && |r.items| == |o.items|
        && r.items[k] == o.items[k].(quantity := o.items[k].quantity + 1)
        && forall i :: 0 <= i < |o.items| && i != k ==> r.items[i] == o.items[i]
    ensures (menuItem.hasAddOns || forall i :: 0 <= i < |o.items| ==>
               !(o.items[i].menuItemId == menuItem.id && o.items[i].portion == portion)) ==>
        && |r.items| == |o.items| + 1
        && r.items[..|o.items|] == o.items
        && r.items[|o.items|] == OrderItem(freshId, menuItem.id, menuItem.name, menuItem.category,
                                           portion, 1, ResolvePrice(menuItem, portion), addOns)
  {
    var k := Seqs.IndexWhere(o.items, MergesWith(menuItem, portion));
    var newItems :=
      if k != -1 && !menuItem.hasAddOns then
        o.items[k := o.items[k].(quantity := o.items[k].quantity + 1)]
      else
        o.items + [OrderItem(freshId, menuItem.id, menuItem.name, menuItem.category,
                             portion, 1, ResolvePrice(menuItem, portion), addOns)];
    RecalculateOrder(o.(items := newItems))
  }

  /** `removeItemFromOrder`: drops every line with the id, keeping the rest in order. */
  function RemoveItemFromOrder(o: Order, itemId: string): (r: Order)
    ensures TotalsConsistent(r) && r.orderType == o.orderType
    ensures itemId !in LineIds(r.items)
    ensures forall i :: 0 <= i < |r.items| ==> r.items[i] in o.items
    ensures forall i :: 0 <= i < |o.items| && o.items[i].id != itemId ==> o.items[i] in r.items
  {
    RecalculateOrder(o.(items := Seqs.Filter(o.items, (l: OrderItem) => l.id != itemId)))
  }

  /** `updateItemQuantity`: a quantity of zero or less removes the line; otherwise
      only the quantity of the lines with that id changes. */
  function UpdateItemQuantity(o: Order, itemId: string, quantity: int): (r: Order)
    ensures TotalsConsistent(r) && r.orderType == o.orderType
    ensures quantity <= 0 ==> r == RemoveItemFromOrder(o, itemId)
    ensures quantity > 0 ==>
      && |r.items| == |o.items|
      && forall i :: 0 <= i < |o.items| ==>
           && r.items[i].(quantity := o.items[i].quantity) == o.items[i]
           && r.items[i].quantity == (if o.items[i].id == itemId then quantity else o.items[i].quantity)
  {
    if quantity <= 0 then RemoveItemFromOrder(o, itemId)
    else
      var newItems := Seqs.Map(o.items, (l: OrderItem) => if l.id == itemId then l.(quantity := quantity) else l);
      RecalculateOrder(o.(items := newItems))
  }

  /** The add-on list of the target line after `updateAddOnQuantity`: the add-on with
      that id takes quantity max(0, q), and add-ons left at zero are dropped. */
  function SetAddOnQuantity(addOns: seq<OrderItemAddOn>, addOnId: string, quantity: int): (r: seq<OrderItemAddOn>)
    ensures |r| <= |addOns|
    ensures forall i :: 0 <= i < |r| ==> r[i].quantity > 0
    ensures forall i :: 0 <= i < |r| && r[i].id == addOnId ==> r[i].quantity == quantity
    ensures forall i :: 0 <= i < |r| && r[i].id != addOnId ==> r[i] in addOns
    ensures forall i :: 0 <= i < |addOns| && addOns[i].id != addOnId && addOns[i].quantity > 0 ==> addOns[i] in r
    ensures forall i :: 0 <= i < |addOns| && addOns[i].id == addOnId && quantity > 0 ==>
              addOns[i].(quantity := quantity) in r
  {
    var updated := Seqs.Map(addOns, Requantify(addOnId, quantity));
    assert forall i :: 0 <= i < |addOns| && addOns[i].id != addOnId ==> updated[i] == addOns[i];
    Seqs.Filter(updated, Selected)
  }

  /** The per-add-on step of `updateAddOnQuantity`'s `map`: the add-on with that id
      takes quantity max(0, q); the others are unchanged. */
  function Requantify(addOnId: string, quantity: int): OrderItemAddOn -> OrderItemAddOn {
    (a: OrderItemAddOn) => if a.id == addOnId then a.(quantity := if quantity < 0 then 0 else quantity) else a
  }

  /** The updated add-on list keeps list order: it is computed piecewise over any
      split, and one add-on becomes its updated self, kept only when its quantity is
      positive. */
  lemma SetAddOnQuantityConcat(a: seq<OrderItemAddOn>, b: seq<OrderItemAddOn>, addOnId: string, quantity: int)
    ensures SetAddOnQuantity(a + b, addOnId, quantity)
         == SetAddOnQuantity(a, addOnId, quantity) + SetAddOnQuantity(b, addOnId, quantity)
    ensures |a| == 1 ==>
      (var c := if a[0].id == addOnId then a[0].(quantity := if quantity < 0 then 0 else quantity) else a[0];
       SetAddOnQuantity(a, addOnId, quantity) == if c.quantity > 0 then [c] else [])
  {
    var f := Requantify(addOnId, quantity);
    assert Seqs.Map(a + b, f) == Seqs.Map(a, f) + Seqs.Map(b, f);
    Seqs.FilterConcat(Seqs.Map(a, f), Seqs.Map(b, f), Selected);
    if |a| == 1 {
      assert Seqs.Map(a, f) == [f(a[0])];
      assert Seqs.Map(a, f)[1..] == [];
    }
  }

  /** `updateAddOnQuantity`: only the add-ons of the lines with that id change. */
  function UpdateAddOnQuantity(o: Order, itemId: string, addOnId: string, quantity: int): (r: Order)
    ensures TotalsConsistent(r) && r.orderType == o.orderType
    ensures |r.items| == |o.items|
    ensures forall i :: 0 <= i < |o.items| && o.items[i].id != itemId ==> r.items[i] == o.items[i]
    ensures forall i :: 0 <= i < |o.items| && o.items[i].id == itemId ==>
      r.items[i] == o.items[i].(addOns := SetAddOnQuantity(o.items[i].addOns, addOnId, quantity))
  {
    var newItems := Seqs.Map(o.items, (l: OrderItem) =>
      if l.id != itemId then l else l.(addOns := SetAddOnQuantity(l.addOns, addOnId, quantity)));
    RecalculateOrder(o.(items := newItems))
  }

  /** `setOrderType`: changes the order type and nothing else. */
  function SetOrderType(o: Order, orderType: OrderType): (r: Order)
    ensures r.orderType == orderType
    ensures r.items == o.items && r.subtotal == o.subtotal && r.total == o.total
  {
    o.(orderType := orderType)
  }

  /** `clearOrder`: a fresh empty order, whatever came before. */
  function ClearOrder(): (r: Order)
    ensures Valid(r) && IsOrderEmpty(r) && r.orderType == DineIn
  {
    CreateEmptyOrder()
  }

  /** `isOrderEmpty`: an order without lines, which costs nothing when its totals
      are consistent. */
  function IsOrderEmpty(o: Order): (r: bool)
    ensures r <==> o.items == []
    ensures r && Valid(o) ==> o.subtotal == 0 && o.total == 0
  {
    SubtotalAdditive([], []);
    |o.items| == 0
  }

  /** Adding keeps the invariant, given the add-on picker hands over only add-ons
      with a positive quantity. */
  lemma AddPreservesValid(o: Order, menuItem: MenuItem, portion: Option<Portion>,
                          addOns: seq<OrderItemAddOn>, freshId: string)
    requires Valid(o) && freshId !in LineIds(o.items)
    requires forall j :: 0 <= j < |addOns| ==> addOns[j].quantity > 0
    ensures Valid(AddItemToOrder(o, menuItem, portion, addOns, freshId))
    ensures !IsOrderEmpty(AddItemToOrder(o, menuItem, portion, addOns, freshId))
  {
    var r := AddItemToOrder(o, menuItem, portion, addOns, freshId);
    var k := Seqs.IndexWhere(o.items, MergesWith(menuItem, portion));
    if k != -1 && !menuItem.hasAddOns {
      BumpKeepsLinesValid(o.items, k, r.items);
    } else {
      var line := r.items[|o.items|];
      assert r.items == o.items + [line];
      AppendKeepsLinesValid(o.items, line);
    }
  }

  /** Raising one line's quantity keeps the line invariants. */
  lemma BumpKeepsLinesValid(items: seq<OrderItem>, k: int, r: seq<OrderItem>)
    requires QuantitiesPositive(items) && AddOnsSelected(items) && DistinctIds(items)
    requires 0 <= k < |items| && |r| == |items|
    requires r[k] == items[k].(quantity := items[k].quantity + 1)
    requires forall i :: 0 <= i < |items| && i != k ==> r[i] == items[i]
    ensures QuantitiesPositive(r) && AddOnsSelected(r) && DistinctIds(r)
  {
    assert forall i :: 0 <= i < |items| ==> r[i].id == items[i].id && r[i].addOns == items[i].addOns;
  }

  /** Appending a line with a fresh id, a positive quantity and selected add-ons keeps
      the line invariants. */
  lemma AppendKeepsLinesValid(items: seq<OrderItem>, line: OrderItem)
    requires QuantitiesPositive(items) && AddOnsSelected(items) && DistinctIds(items)
    requires line.id !in LineIds(items) && line.quantity >= 1
    requires forall j :: 0 <= j < |line.addOns| ==> line.addOns[j].quantity > 0
    ensures var r := items + [line];
      QuantitiesPositive(r) && AddOnsSelected(r) && DistinctIds(r)
  {
    forall i | 0 <= i < |items|
      ensures items[i].id != line.id
    {
      assert items[i].id in LineIds(items);
    }
  }

  /** Removing keeps the invariant. */
  lemma RemovePreservesValid(o: Order, itemId: string)
    requires Valid(o)
    ensures Valid(RemoveItemFromOrder(o, itemId))
  {
    var r := RemoveItemFromOrder(o, itemId);
    FilterKeepsDistinct(o.items, (l: OrderItem) => l.id != itemId);
    forall i | 0 <= i < |r.items|
      ensures r.items[i].quantity >= 1
      ensures forall j :: 0 <= j < |r.items[i].addOns| ==> r.items[i].addOns[j].quantity > 0
    {
      assert r.items[i] in o.items;
    }
  }

  /** A filtered list of lines with distinct ids still has distinct ids. */
  lemma {:induction false} FilterKeepsDistinct(items: seq<OrderItem>, p: OrderItem -> bool)
    requires DistinctIds(items)
    ensures DistinctIds(Seqs.Filter(items, p))
  {
    if |items| > 0 {
      FilterKeepsDistinct(items[1..], p);
      var rest := Seqs.Filter(items[1..], p);
      forall i | 0 <= i < |rest|
        ensures rest[i].id != items[0].id
      {
        assert rest[i] in items[1..];
      }
    }
  }

  /** Changing a quantity keeps the invariant. */
  lemma UpdateQuantityPreservesValid(o: Order, itemId: string, quantity: int)
    requires Valid(o)
    ensures Valid(UpdateItemQuantity(o, itemId, quantity))
  {
    if quantity <= 0 {
      RemovePreservesValid(o, itemId);
    } else {
      var r := UpdateItemQuantity(o, itemId, quantity);
      assert forall i :: 0 <= i < |o.items| ==> r.items[i].id == o.items[i].id && r.items[i].addOns == o.items[i].addOns;
    }
  }

  /** Changing an add-on quantity keeps the invariant. */
  lemma UpdateAddOnPreservesValid(o: Order, itemId: string, addOnId: string, quantity: int)
    requires Valid(o)
    ensures Valid(UpdateAddOnQuantity(o, itemId, addOnId, quantity))
  {
    var r := UpdateAddOnQuantity(o, itemId, addOnId, quantity);
    assert forall i :: 0 <= i < |o.items| ==> r.items[i].id == o.items[i].id && r.items[i].quantity == o.items[i].quantity;
  }

  /** Changing the order type keeps the invariant. */
  lemma SetOrderTypePreservesValid(o: Order, orderType: OrderType)
    requires Valid(o)
    ensures Valid(SetOrderType(o, orderType))
  {
  }

  /** Removal is idempotent. */
  lemma RemoveIdempotent(o: Order, itemId: string)
    ensures RemoveItemFromOrder(RemoveItemFromOrder(o, itemId), itemId) == RemoveItemFromOrder(o, itemId)
  {
    Seqs.FilterIdempotent(o.items, (l: OrderItem) => l.id != itemId);
  }

  /** Removal keeps the surviving lines in their relative order: it works piecewise
      on any split of the line list. */
  lemma RemoveKeepsOrder(a: seq<OrderItem>, b: seq<OrderItem>, t: OrderType, itemId: string)
    ensures RemoveItemFromOrder(Order(a + b, t, 0, 0), itemId).items
         == RemoveItemFromOrder(Order(a, t, 0, 0), itemId).items
          + RemoveItemFromOrder(Order(b, t, 0, 0), itemId).items
  {
    Seqs.FilterConcat(a, b, (l: OrderItem) => l.id != itemId);
  }

  /** An unknown line id leaves the lines untouched, for removal and for both updates. */
  lemma UnknownIdIsNoOp(o: Order, itemId: string, addOnId: string, quantity: int)
    requires itemId !in LineIds(o.items)
    ensures RemoveItemFromOrder(o, itemId).items == o.items
    ensures UpdateItemQuantity(o, itemId, quantity).items == o.items
    ensures UpdateAddOnQuantity(o, itemId, addOnId, quantity).items == o.items
  {
    forall i | 0 <= i < |o.items|
      ensures o.items[i].id != itemId
    {
      assert o.items[i].id in LineIds(o.items);
    }
    Seqs.FilterAllPass(o.items, (l: OrderItem) => l.id != itemId);
  }

  /** Adding the same simple item twice with the same portion, to an order without
      such a line, leaves one new line of quantity 2. */
  lemma SimpleItemMerges(o: Order, menuItem: MenuItem, portion: Option<Portion>, id1: string, id2: string)
    requires !menuItem.hasAddOns
    requires forall i :: 0 <= i < |o.items| ==>
      !(o.items[i].menuItemId == menuItem.id && o.items[i].portion == portion)
    requires id1 !in LineIds(o.items)
    ensures var o1 := AddItemToOrder(o, menuItem, portion, [], id1);
      id2 !in LineIds(o1.items) ==>
        var o2 := AddItemToOrder(o1, menuItem, portion, [], id2);
        && |o2.items| == |o.items| + 1
        && o2.items[..|o.items|] == o.items
        && o2.items[|o.items|].quantity == 2
        && o2.items[|o.items|].id == id1
  {
    var o1 := AddItemToOrder(o, menuItem, portion, [], id1);
    if id2 !in LineIds(o1.items) {
      var k := Seqs.IndexWhere(o1.items, MergesWith(menuItem, portion));
      assert Mergeable(o1.items[|o.items|], menuItem, portion);
      assert k == |o.items|;
    }
  }

  /** Adding an item that takes add-ons always appends, so two identical additions
      give two distinct lines. */
  lemma AddOnItemsNeverMerge(o: Order, menuItem: MenuItem, portion: Option<Portion>,
                             addOns: seq<OrderItemAddOn>, id1: string, id2: string)
    requires menuItem.hasAddOns
    requires id1 !in LineIds(o.items) && id1 != id2
    ensures var o1 := AddItemToOrder(o, menuItem, portion, addOns, id1);
      id2 !in LineIds(o1.items) ==>
        var o2 := AddItemToOrder(o1, menuItem, portion, addOns, id2);
        && |o2.items| == |o.items| + 2
        && o2.items[..|o.items|] == o.items
        && o2.items[|o.items|].id == id1 && o2.items[|o.items| + 1].id == id2
        && o2.items[|o.items|].quantity == 1 && o2.items[|o.items| + 1].quantity == 1
  {
  }
}

=== FILE: pricing.dfy ===
/** The pricing engine: line totals, the order subtotal and its rounding, and the
    short texts (price, display name, add-on summary) shown for an order. */
module Pricing {
  import opened Types
  import opened Text
  import Seqs

  const RUPEE: char := '\U{20B9}'
  const TIMES: char := '\U{D7}'

  /** The charge of one selected add-on. */
  function AddOnCharge(a: OrderItemAddOn): int {
    a.price * a.quantity
  }

  /** Reference definition: the sum of price × quantity over the add-ons. */
  function AddOnCharges(addOns: seq<OrderItemAddOn>): int {
    Seqs.Sum(addOns, AddOnCharge)
  }

  /** Line total: base price × quantity plus every add-on's price × quantity,
      accumulated left to right from 0. */
  function CalculateItemTotal(item: OrderItem): (r: int)
    ensures r == item.basePrice * item.quantity + AddOnCharges(item.addOns)
  {
    var addOnTotal := Seqs.FoldSum(item.addOns, AddOnCharge, 0);
    Seqs.FoldSumIsSum(item.addOns, AddOnCharge, 0);
    item.basePrice * item.quantity + addOnTotal
  }

  /** Order subtotal: the line totals accumulated left to right from 0, unrounded;
      it equals the reference sum of the line totals. */
  function CalculateSubtotal(items: seq<OrderItem>): (r: int)
    ensures r == Seqs.Sum(items, CalculateItemTotal)
  {
    Seqs.FoldSumIsSum(items, CalculateItemTotal, 0);
    Seqs.FoldSum(items, CalculateItemTotal, 0)
  }

  /** The subtotal of no lines is 0, of one line is its line total, and it adds
      up over concatenated lists of lines. */
  lemma SubtotalAdditive(a: seq<OrderItem>, b: seq<OrderItem>)
    ensures CalculateSubtotal([]) == 0
    ensures |a| == 1 ==> CalculateSubtotal(a) == CalculateItemTotal(a[0])
    ensures CalculateSubtotal(a + b) == CalculateSubtotal(a) + CalculateSubtotal(b)
  {
    Seqs.SumConcat(a, b, CalculateItemTotal);
    if |a| == 1 {
      assert a[..0] == [];
    }
  }

  /** `Math.round`: the integer nearest to `x`, an exact half rounding up. */
  function Round(x: real): (r: int)
    ensures r as real - 0.5 <= x < r as real + 0.5
  {
    (x + 0.5).Floor
  }

  /** Half-up rounding at 99.5 and 99.4, and at negative halves. */
  lemma RoundExamples()
    ensures Round(99.5) == 100 && Round(99.4) == 99
    ensures Round(-2.5) == -2 && Round(-0.5) == 0
  {
  }

  /** Rounded total: with whole-rupee amounts the rounding leaves the subtotal unchanged. */
  function CalculateTotal(items: seq<OrderItem>): (r: int)
    ensures r == CalculateSubtotal(items)
  {
    Round(CalculateSubtotal(items) as real)
  }

  /** `formatPrice`: the rupee sign followed by the amount with no decimals, in
      canonical decimal form (no leading zero except for 0 itself). */
  function FormatPrice(amount: int): (r: string)
    ensures |r| >= 2 && r[0] == RUPEE
    ensures amount >= 0 ==> AllDigits(r[1..]) && DigitsValue(r[1..]) == amount && (r[1] == '0' ==> |r| == 2)
    ensures amount < 0 ==> |r| >= 3 && r[1] == '-' && AllDigits(r[2..]) && DigitsValue(r[2..]) == -amount && r[2] != '0'
    ensures '\n' !in r
  {
    var digits := IntToString(amount);
    assert ([RUPEE] + digits)[1..] == digits;
    [RUPEE] + digits
  }

  /** `formatItemName`: the name, suffixed with " (Full)" or " (Half)" when a portion is set. */
  function FormatItemName(item: OrderItem): (r: string)
    ensures |item.name| <= |r| && r[..|item.name|] == item.name
    ensures item.portion == None ==> r == item.name
    ensures item.portion == Some(Full) ==> r[|item.name|..] == " (Full)"
    ensures item.portion == Some(Half) ==> r[|item.name|..] == " (Half)"
    ensures '\n' !in item.name ==> '\n' !in r
  {
    match item.portion
    case Some(p) => item.name + " (" + (if p == Full then "Full" else "Half") + ")"
    case None => item.name
  }

  /** A line with a portion is named like the same line without one, followed by
      the portion in parentheses. */
  lemma PortionNameSuffix(item: OrderItem)
    ensures item.portion == Some(Full) ==>
      FormatItemName(item) == FormatItemName(item.(portion := None)) + " (Full)"
    ensures item.portion == Some(Half) ==>
      FormatItemName(item) == FormatItemName(item.(portion := None)) + " (Half)"
  {
    if item.portion.Some? {
      var tail := if item.portion == Some(Full) then " (Full)" else " (Half)";
      assert FormatItemName(item) == FormatItemName(item.(portion := None)) + tail;
    }
  }

  /** The quantity text "×q". */
  function QuantityText(q: int): (r: string)
    ensures |r| >= 2 && r[0] == TIMES && r[1..] == IntToString(q)
    ensures '\n' !in r
  {
    [TIMES] + IntToString(q)
  }

  /** The quantity suffix " ×q", shown only for quantities above one. */
  function QuantitySuffix(q: int): (r: string)
    ensures |r| > 0 <==> q > 1
    ensures q > 1 ==> r == " " + QuantityText(q)
    ensures '\n' !in r
  {
    if q > 1 then " " + QuantityText(q) else ""
  }

  /** One entry of the add-on summary: "+ name", then " ×q" when q > 1. */
  function SummaryEntry(a: OrderItemAddOn): (r: string)
    ensures |r| >= 2 + |a.name| && r[..2] == "+ " && r[2..2 + |a.name|] == a.name
    ensures |r| > 2 + |a.name| <==> a.quantity > 1
    ensures a.quantity > 1 ==> r[2 + |a.name|..] == " " + QuantityText(a.quantity)
    ensures '\n' !in a.name ==> '\n' !in r
  {
    var head := "+ " + a.name;
    var suffix := QuantitySuffix(a.quantity);
    assert (head + suffix)[..|head|] == head && (head + suffix)[|head|..] == suffix;
    head + suffix
  }

  predicate Selected(a: OrderItemAddOn) {
    a.quantity > 0
  }

  /** `getAddOnsSummary`: "" for no add-ons; otherwise one entry per add-on with a
      positive quantity, in input order, joined by newlines. */
  function GetAddOnsSummary(addOns: seq<OrderItemAddOn>): (r: string)
    ensures |addOns| == 0 ==> r == ""
    ensures (forall i :: 0 <= i < |addOns| ==> !Selected(addOns[i])) ==> r == ""
  {
    if |addOns| == 0 then ""
    else Join(Seqs.Map(Seqs.Filter(addOns, Selected), SummaryEntry), "\n")
  }

  /** Splitting a non-empty summary at its newlines yields exactly the entries of the
      selected add-ons, in order (when no add-on name holds a newline). */
  lemma SummaryEntries(addOns: seq<OrderItemAddOn>)
    requires forall a :: a in addOns ==> '\n' !in a.name
    requires exists i :: 0 <= i < |addOns| && Selected(addOns[i])
    ensures Split(GetAddOnsSummary(addOns), '\n')
         == Seqs.Map(Seqs.Filter(addOns, Selected), SummaryEntry)
  {
    var sel := Seqs.Filter(addOns, Selected);
    var i :| 0 <= i < |addOns| && Selected(addOns[i]);
    assert addOns[i] in sel;
    var entries := Seqs.Map(sel, SummaryEntry);
    forall k | 0 <= k < |entries|
      ensures '\n' !in entries[k]
    {
      assert sel[k] in addOns;
      assert entries[k] == SummaryEntry(sel[k]);
    }
    assert "\n" == ['\n'];
    SplitJoin(entries, '\n');
  }
}

=== FILE: queries.dfy ===
/** Bill numbering and bill saving. The `daily_counter` table is a map from a
    calendar-day key to the last counter issued that day; the clock readings and
    the inserted row id are parameters. */
module Queries {
  import opened Types
  import opened Text
  import Seqs

  const BILL_PREFIX: string := "AB"

  /** `iso.split('T')[0]`: everything before the first `T`, or the whole text
      when it has none. */
  function DateKey(iso: string): (r: string)
    ensures |r| <= |iso| && r == iso[..|r|]
    ensures 'T' !in r
    ensures |r| < |iso| ==> iso[|r|] == 'T'
  {
    var i := IndexOf(iso, 'T');
    assert i == -1 ==> iso[..|iso|] == iso;
    Split(iso, 'T')[0]
  }

  /** `day.replace(/-/g, '')`. */
  function CompactDate(day: string): (r: string)
    ensures '-' !in r
  {
    Seqs.Filter(day, (c: char) => c != '-')
  }

  /** `n.toString().padStart(3, '0')`: the text of `n` behind enough zeros to make
      three characters, never cut. */
  function CounterText(n: int): (r: string)
    ensures |r| >= 3 && |r| >= |IntToString(n)|
    ensures r[|r| - |IntToString(n)|..] == IntToString(n)
    ensures forall i :: 0 <= i < |r| - |IntToString(n)| ==> r[i] == '0'
  {
    PadStart(IntToString(n), 3, '0')
  }

  /** The bill number `PREFIX-YYYYMMDD-NNN`: after `AB-` come the dash-free day
      field, one dash and the counter text. */
  function FormatBillNumber(day: string, n: int): (r: string)
    ensures |r| >= 3 && r[..3] == "AB-"
    ensures r[3..] == CompactDate(day) + ['-'] + CounterText(n)
  {
    var c, t := CompactDate(day), CounterText(n);
    FieldsAfterPrefix(BILL_PREFIX, c, t);
    BILL_PREFIX + "-" + c + "-" + t
  }

  /** The outcome of one allocation: the updated table, the counter issued and the
      bill number built from it. */
  datatype Allocation = Allocation(counters: map<string, int>, counter: int, billNumber: string)

  /** `getNextBillNumber` at time `now` (an ISO-8601 timestamp): a day without a
      counter starts at 1; otherwise the stored counter goes up by one. Other days
      keep their counters. */
  function GetNextBillNumber(counters: map<string, int>, now: string): (a: Allocation)
    ensures var day := DateKey(now);
      && (day !in counters ==> a.counter == 1)
      && (day in counters ==> a.counter == counters[day] + 1)
      && day in a.counters && a.counters[day] == a.counter
      && a.billNumber == FormatBillNumber(day, a.counter)
    ensures forall d :: d != DateKey(now) ==>
      (d in a.counters <==> d in counters) && (d in counters ==> a.counters[d] == counters[d])
  {
    var day := DateKey(now);
    var next := if day in counters then counters[day] + 1 else 1;
    Allocation(counters[day := next], next, FormatBillNumber(day, next))
  }

  /** A string of at most two digits has a value below 100. */
  lemma DigitsBelow(s: string)
    requires AllDigits(s) && |s| <= 2
    ensures DigitsValue(s) < 100
  {
    if |s| > 0 {
      assert DigitsValue(s[..|s| - 1]) < 10 by {
        var p := s[..|s| - 1];
        if |p| > 0 {
          assert p[..|p| - 1] == [];
        }
      }
    }
  }

  /** The counter text holds the counter's digits, zero-padded to three places and
      not truncated above 999. */
  lemma CounterTextDigits(n: nat)
    ensures var t := CounterText(n);
      && |t| >= 3 && AllDigits(t) && DigitsValue(t) == n
      && (n < 1000 ==> |t| == 3)
      && (n >= 100 ==> t == NatToString(n))
  {
    var s := NatToString(n);
    var t := CounterText(n);
    if |s| < 3 {
      assert t == Repeat('0', 3 - |s|) + s;
      LeadingZeros(3 - |s|, s);
    }
    if n < 1000 {
      assert Pow10(3) == 1000;
      NatToStringLength(n, 3);
    }
    if n >= 100 {
      assert |s| >= 3 by {
        if |s| < 3 {
          assert Pow10(3) == 1000;
          DigitsBelow(s);
        }
      }
    }
  }

  /** The day key of an ISO timestamp `YYYY-MM-DDT...`. */
  predicate IsoTimestamp(now: string) {
    && |now| > 10
    && now[4] == '-' && now[7] == '-' && now[10] == 'T'
    && forall i :: 0 <= i < 10 && i != 4 && i != 7 ==> IsDigit(now[i])
  }

  /** For an ISO timestamp the day key is its `YYYY-MM-DD` prefix. */
  lemma IsoDateKey(now: string)
    requires IsoTimestamp(now)
    ensures DateKey(now) == now[..10]
  {
    assert 'T' !in now[..10] by {
      forall i | 0 <= i < 10
        ensures now[..10][i] != 'T'
      {
        assert i == 4 || i == 7 || IsDigit(now[i]);
      }
    }
    IndexOfAfter(now[..10], 'T', now[11..]);
    assert now == now[..10] + ['T'] + now[11..];
  }

  /** Removing the dashes of `y-m-d` leaves `ymd` when the fields hold no dash. */
  lemma CompactFields(y: string, m: string, d: string)
    requires '-' !in y && '-' !in m && '-' !in d
    ensures CompactDate(y + "-" + m + "-" + d) == y + m + d
  {
    var keep := (c: char) => c != '-';
    assert Seqs.Filter("-", keep) == [];
    Seqs.FilterAllPass(y, keep);
    Seqs.FilterAllPass(m, keep);
    Seqs.FilterAllPass(d, keep);
    var a := y + "-";
    Seqs.FilterConcat(y, "-", keep);
    assert Seqs.Filter(a, keep) == y;
    var b := a + m;
    Seqs.FilterConcat(a, m, keep);
    assert Seqs.Filter(b, keep) == y + m;
    var c := b + "-";
    Seqs.FilterConcat(b, "-", keep);
    assert Seqs.Filter(c, keep) == y + m;
    Seqs.FilterConcat(c, d, keep);
  }

  /** The middle field of a bill number allocated at an ISO timestamp is the eight
      digits `YYYYMMDD`. */
  lemma IsoDateField(now: string)
    requires IsoTimestamp(now)
    ensures CompactDate(DateKey(now)) == now[..4] + now[5..7] + now[8..10]
    ensures |CompactDate(DateKey(now))| == 8 && AllDigits(CompactDate(DateKey(now)))
  {
    IsoDateKey(now);
    var y, m, d := now[..4], now[5..7], now[8..10];
    assert now[..10] == y + "-" + m + "-" + d;
    assert forall i :: 0 <= i < 4 ==> y[i] == now[i] && IsDigit(y[i]);
    assert forall i :: 0 <= i < 2 ==> m[i] == now[i + 5] && IsDigit(m[i]);
    assert forall i :: 0 <= i < 2 ==> d[i] == now[i + 8] && IsDigit(d[i]);
    CompactFields(y, m, d);
  }

  /** A dash-free field followed by a dash can be read back off the front. */
  lemma SplitAtDash(c1: string, t1: string, c2: string, t2: string)
    requires '-' !in c1 && '-' !in c2
    requires c1 + ['-'] + t1 == c2 + ['-'] + t2
    ensures c1 == c2 && t1 == t2
  {
    var u := c1 + ['-'] + t1;
    IndexOfAfter(c1, '-', t1);
    IndexOfAfter(c2, '-', t2);
    assert c1 == u[..|c1|] && t1 == u[|c1| + 1..];
    assert c2 == u[..|c2|] && t2 == u[|c2| + 1..];
  }

  /** What precedes and what follows `p` and its dash in `p-c-t`. */
  lemma FieldsAfterPrefix(p: string, c: string, t: string)
    ensures var s := p + "-" + c + "-" + t;
      |s| >= |p| + 1 && s[..|p| + 1] == p + "-" && s[|p| + 1..] == c + ['-'] + t
  {
    var s := p + "-" + c + "-" + t;
    assert s == p + "-" + (c + ['-'] + t);
  }

  /** Bill numbers determine their day field and counter, so no two allocations for
      one day share a number. */
  lemma BillNumberInjective(d1: string, n1: nat, d2: string, n2: nat)
    requires FormatBillNumber(d1, n1) == FormatBillNumber(d2, n2)
    ensures CompactDate(d1) == CompactDate(d2) && n1 == n2
  {
    SplitAtDash(CompactDate(d1), CounterText(n1), CompactDate(d2), CounterText(n2));
    CounterTextDigits(n1);
    CounterTextDigits(n2);
  }

  /** Two allocations in a row on the same day issue N and N + 1, with distinct
      bill numbers. */
  lemma ConsecutiveAllocations(counters: map<string, int>, now1: string, now2: string)
    requires DateKey(now1) == DateKey(now2)
    requires DateKey(now1) in counters ==> counters[DateKey(now1)] >= 0
    ensures var a1 := GetNextBillNumber(counters, now1);
            var a2 := GetNextBillNumber(a1.counters, now2);
      && a2.counter == a1.counter + 1
      && a1.billNumber != a2.billNumber
  {
    var a1 := GetNextBillNumber(counters, now1);
    var a2 := GetNextBillNumber(a1.counters, now2);
    if a1.billNumber == a2.billNumber {
      BillNumberInjective(DateKey(now1), a1.counter, DateKey(now2), a2.counter);
    }
  }

  /** The fields of a bill before it is saved. */
  datatype NewBill = NewBill(orderType: OrderType, items: seq<OrderItem>, subtotal: int, total: int)

  datatype Saved = Saved(counters: map<string, int>, bill: Bill)

  /** `saveBill`: allocates a bill number at `now`, and returns the stored bill with
      row id `rowId` and creation timestamp `createdAt` (a second clock reading). */
  function SaveBill(draft: NewBill, counters: map<string, int>, now: string, rowId: int, createdAt: string): (s: Saved)
    ensures && s.bill.orderType == draft.orderType && s.bill.items == draft.items
            && s.bill.subtotal == draft.subtotal && s.bill.total == draft.total
    ensures s.bill.id == Some(rowId) && s.bill.createdAt == createdAt
    ensures var a := GetNextBillNumber(counters, now);
      s.bill.billNumber == a.billNumber && s.counters == a.counters
  {
    var a := GetNextBillNumber(counters, now);
    Saved(a.counters, Bill(Some(rowId), a.billNumber, draft.orderType, draft.items,
                           draft.subtotal, draft.total, createdAt))
  }

  /** Two bills saved one after the other on the same day get different numbers. */
  lemma SavedBillsDistinct(b1: NewBill, b2: NewBill, counters: map<string, int>,
                           now1: string, now2: string, id1: int, id2: int, at1: string, at2: string)
    requires DateKey(now1) == DateKey(now2)
    requires DateKey(now1) in counters ==> counters[DateKey(now1)] >= 0
    ensures var s1 := SaveBill(b1, counters, now1, id1, at1);
            var s2 := SaveBill(b2, s1.counters, now2, id2, at2);
      s1.bill.billNumber != s2.bill.billNumber
  {
    ConsecutiveAllocations(counters, now1, now2);
  }
}

=== FILE: scenarios.dfy ===
/** Concrete orders and bill numbers worked through the model end to end. */
module Scenarios {
  import opened Types
  import opened OrderBuilder
  import opened Pricing
  import Queries
  import Menu
  import Seqs
  import Text

  /** Tea (no portions, no add-ons) added twice is one line of quantity 2 costing 30. */
  lemma TeaTwice()
    ensures var tea := Menu.MENU_ITEMS[0];
            var o1 := AddItemToOrder(CreateEmptyOrder(), tea, None, [], "line-1");
      && "line-2" !in LineIds(o1.items)
      && var o2 := AddItemToOrder(o1, tea, None, [], "line-2");
         && |o2.items| == 1
         && o2.items[0].quantity == 2 && o2.items[0].basePrice == 15 && o2.items[0].id == "line-1"
         && o2.subtotal == 30 && o2.total == 30
  {
    var tea := Menu.MENU_ITEMS[0];
    var o1 := AddItemToOrder(CreateEmptyOrder(), tea, None, [], "line-1");
    var line := OrderItem("line-1", "tea", "Tea", Beverages, None, 1, 15, []);
    assert o1.items == [line] by {
      assert ResolvePrice(tea, None) == 15;
      assert o1.items[..0] == [];
    }
    OneLineIds(o1.items);
    MergeIntoOnlyLine(o1, tea, "line-2");
    var o2 := AddItemToOrder(o1, tea, None, [], "line-2");
    OneLineTotals(o2);
  }

  /** The ids of a one-line order are that line's id. */
  lemma OneLineIds(items: seq<OrderItem>)
    requires |items| == 1
    ensures LineIds(items) == {items[0].id}
  {
  }

  /** A simple item added again to a one-line order of it bumps that line. */
  lemma MergeIntoOnlyLine(o: Order, menuItem: MenuItem, freshId: string)
    requires |o.items| == 1 && Mergeable(o.items[0], menuItem, None)
    requires freshId !in LineIds(o.items)
    ensures AddItemToOrder(o, menuItem, None, [], freshId).items
         == [o.items[0].(quantity := o.items[0].quantity + 1)]
  {
    var k := Seqs.IndexWhere(o.items, MergesWith(menuItem, None));
    assert MergesWith(menuItem, None)(o.items[0]);
    assert k == 0;
  }

  /** The totals of a consistent one-line order are that line's total. */
  lemma OneLineTotals(o: Order)
    requires |o.items| == 1 && OrderBuilder.TotalsConsistent(o)
    ensures o.subtotal == CalculateItemTotal(o.items[0]) && o.total == o.subtotal
  {
    SubtotalAdditive(o.items, []);
  }

  /** A full Chicken Biryani with one Raita is priced at 180 plus 20. */
  lemma BiryaniWithRaita()
    ensures var biryani := Menu.MENU_ITEMS[8];
            var raita := OrderItemAddOn("raita", "Raita", 20, 1);
            var o := AddItemToOrder(CreateEmptyOrder(), biryani, Some(Full), [raita], "line-1");
      && |o.items| == 1
      && o.items[0].basePrice == 180
      && CalculateItemTotal(o.items[0]) == 200
      && o.subtotal == 200 && o.total == 200
  {
    var biryani := Menu.MENU_ITEMS[8];
    var raita := OrderItemAddOn("raita", "Raita", 20, 1);
    var o := AddItemToOrder(CreateEmptyOrder(), biryani, Some(Full), [raita], "line-1");
    assert ResolvePrice(biryani, Some(Full)) == 180;
    assert AddOnCharges([raita]) == 20 by {
      assert [raita][..0] == [];
      assert Seqs.Sum([raita], AddOnCharge) == Seqs.Sum([], AddOnCharge) + AddOnCharge(raita);
    }
    SubtotalAdditive(o.items, []);
  }

  /** A half portion takes the half price when one is listed. */
  lemma HalfPortionPrice()
    ensures var o := AddItemToOrder(CreateEmptyOrder(), Menu.MENU_ITEMS[9], Some(Half), [], "line-1");
      o.items[0].basePrice == 140 && o.total == 140
  {
    var mutton := Menu.MENU_ITEMS[9];
    var o := AddItemToOrder(CreateEmptyOrder(), mutton, Some(Half), [], "line-1");
    assert ResolvePrice(mutton, Some(Half)) == 140;
    var line := OrderItem("line-1", mutton.id, mutton.name, mutton.category, Some(Half), 1, 140, []);
    assert o.items == [line] by {
      assert o.items[..0] == [];
    }
    assert AddOnCharges([]) == 0;
    assert CalculateItemTotal(line) == 140;
    SubtotalAdditive(o.items, []);
  }

  /** The first two bills of a day that has no counter yet are numbered 001 and 002,
      after the prefix and the timestamp's `YYYYMMDD`. */
  lemma FirstBillsOfDay(counters: map<string, int>, now1: string, now2: string)
    requires Queries.IsoTimestamp(now1) && Queries.IsoTimestamp(now2)
    requires now1[..10] == now2[..10] && now1[..10] !in counters
    ensures var a1 := Queries.GetNextBillNumber(counters, now1);
            var a2 := Queries.GetNextBillNumber(a1.counters, now2);
            var ymd := now1[..4] + now1[5..7] + now1[8..10];
      && a1.billNumber == "AB-" + ymd + "-001"
      && a2.billNumber == "AB-" + ymd + "-002"
  {
    Queries.IsoDateKey(now1);
    Queries.IsoDateKey(now2);
    Queries.IsoDateField(now1);
    var day := now1[..10];
    var ymd := now1[..4] + now1[5..7] + now1[8..10];
    CounterUnderTen(1);
    CounterUnderTen(2);
    BillNumberOf(day, ymd, 1, "001");
    BillNumberOf(day, ymd, 2, "002");
  }

  /** A bill number is the prefix, the compact day and the counter, dash-separated. */
  lemma BillNumberOf(day: string, compact: string, n: int, counter: string)
    requires Queries.CompactDate(day) == compact && Queries.CounterText(n) == counter
    ensures Queries.FormatBillNumber(day, n) == "AB-" + compact + "-" + counter
  {
    var u := Queries.FormatBillNumber(day, n);
    assert u == Queries.BILL_PREFIX + "-" + compact + "-" + counter;
    assert Queries.BILL_PREFIX + "-" == "AB-";
  }

  /** A counter below ten is written with two leading zeros. */
  lemma CounterUnderTen(n: nat)
    requires n < 10
    ensures Queries.CounterText(n) == "00" + [Text.DigitChar(n)]
  {
    assert Text.NatToString(n) == [Text.DigitChar(n)];
    assert Text.Repeat('0', 2) == "00";
  }

}

=== FILE: seqs.dfy ===
/** Generic sequence helpers: the array methods (`filter`, `map`, `findIndex`,
    `reduce`) that the billing code applies to its lists. */
module Seqs {

  /** Keeps the elements that satisfy `p`, in their original order. */
  function Filter<T>(s: seq<T>, p: T -> bool): (r: seq<T>)
    ensures |r| <= |s|
    ensures forall i :: 0 <= i < |r| ==> r[i] in s && p(r[i])
    ensures forall i :: 0 <= i < |s| && p(s[i]) ==> s[i] in r
  {
    if |s| == 0 then []
    else if p(s[0]) then [s[0]] + Filter(s[1..], p)
    else Filter(s[1..], p)
  }

  /** Filtering distributes over concatenation: relative order is kept. */
  lemma {:induction false} FilterConcat<T>(a: seq<T>, b: seq<T>, p: T -> bool)
    ensures Filter(a + b, p) == Filter(a, p) + Filter(b, p)
  {
    if |a| == 0 {
      assert a + b == b;
    } else {
      assert (a + b)[0] == a[0];
      assert (a + b)[1..] == a[1..] + b;
      FilterConcat(a[1..], b, p);
    }
  }

  /** Filtering twice with the same test is filtering once. */
  lemma {:induction false} FilterIdempotent<T>(s: seq<T>, p: T -> bool)
    ensures Filter(Filter(s, p), p) == Filter(s, p)
  {
    if |s| > 0 {
      FilterIdempotent(s[1..], p);
      if p(s[0]) {
        var f := Filter(s, p);
        assert f[0] == s[0] && f[1..] == Filter(s[1..], p);
      }
    }
  }

  /** A filter that every element passes changes nothing. */
  lemma {:induction false} FilterAllPass<T>(s: seq<T>, p: T -> bool)
    requires forall i :: 0 <= i < |s| ==> p(s[i])
    ensures Filter(s, p) == s
  {
    if |s| > 0 {
      FilterAllPass(s[1..], p);
      assert [s[0]] + s[1..] == s;
    }
  }

  /** A filter that no element passes leaves nothing. */
  lemma {:induction false} FilterNonePass<T>(s: seq<T>, p: T -> bool)
    requires forall i :: 0 <= i < |s| ==> !p(s[i])
    ensures Filter(s, p) == []
  {
    if |s| > 0 {
      FilterNonePass(s[1..], p);
    }
  }

  /** Applies `f` to every element. */
  function Map<T, U>(s: seq<T>, f: T -> U): (r: seq<U>)
    ensures |r| == |s|
    ensures forall i :: 0 <= i < |s| ==> r[i] == f(s[i])
  {
    seq(|s|, i requires 0 <= i < |s| => f(s[i]))
  }

  /** Index of the first element satisfying `p`, or -1 when there is none. */
  function IndexWhere<T>(s: seq<T>, p: T -> bool): (r: int)
    ensures -1 <= r < |s|
    ensures r == -1 <==> forall i :: 0 <= i < |s| ==> !p(s[i])
    ensures 0 <= r ==> p(s[r]) && forall i :: 0 <= i < r ==> !p(s[i])
  {
    if |s| == 0 then -1
    else if p(s[0]) then 0
    else
      var k := IndexWhere(s[1..], p);
      if k == -1 then -1 else k + 1
  }

  /** Left fold `s.reduce((acc, x) => acc + f(x), acc)`. */
  function FoldSum<T>(s: seq<T>, f: T -> int, acc: int): int
  {
    if |s| == 0 then acc else FoldSum(s[1..], f, acc + f(s[0]))
  }

  /** Reference definition of the sum of `f` over `s`, split at the last element. */
  function Sum<T>(s: seq<T>, f: T -> int): int
  {
    if |s| == 0 then 0 else Sum(s[..|s| - 1], f) + f(s[|s| - 1])
  }

  /** The sum splits over concatenation. */
  lemma {:induction false} SumConcat<T>(a: seq<T>, b: seq<T>, f: T -> int)
    ensures Sum(a + b, f) == Sum(a, f) + Sum(b, f)
    decreases |b|
  {
    if |b| == 0 {
      assert a + b == a;
    } else {
      var b' := b[..|b| - 1];
      assert (a + b)[..|a + b| - 1] == a + b';
      SumConcat(a, b', f);
    }
  }

  /** The left fold from `acc` is `acc` plus the reference sum. */
  lemma {:induction false} FoldSumIsSum<T>(s: seq<T>, f: T -> int, acc: int)
    ensures FoldSum(s, f, acc) == acc + Sum(s, f)
  {
    if |s| > 0 {
      FoldSumIsSum(s[1..], f, acc + f(s[0]));
      assert s == [s[0]] + s[1..];
      SumConcat([s[0]], s[1..], f);
      assert [s[0]][..0] == [];
    }
  }

  /** Applies `f` to every element and concatenates the results. */
  function FlatMap<T, U>(s: seq<T>, f: T -> seq<U>): seq<U>
  {
    if |s| == 0 then [] else f(s[0]) + FlatMap(s[1..], f)
  }

  /** Flat-mapping distributes over concatenation: the pieces keep their order. */
  lemma {:induction false} FlatMapConcat<T, U>(a: seq<T>, b: seq<T>, f: T -> seq<U>)
    ensures FlatMap(a + b, f) == FlatMap(a, f) + FlatMap(b, f)
  {
    if |a| == 0 {
      assert a + b == b;
    } else {
      assert (a + b)[0] == a[0];
      assert (a + b)[1..] == a[1..] + b;
      FlatMapConcat(a[1..], b, f);
    }
  }

  /** When every block of `f` satisfies `p` elementwise, so does the flat-map. */
  lemma {:induction false} FlatMapAll<T, U>(s: seq<T>, f: T -> seq<U>, p: U -> bool)
    requires forall i, k :: 0 <= i < |s| && 0 <= k < |f(s[i])| ==> p(f(s[i])[k])
    ensures forall k :: 0 <= k < |FlatMap(s, f)| ==> p(FlatMap(s, f)[k])
  {
    if |s| > 0 {
      FlatMapAll(s[1..], f, p);
      assert forall k :: 0 <= k < |f(s[0])| ==> p(f(s[0])[k]);
    }
  }
}

=== FILE: templates.dfy ===
/** Receipt templates for a 58 mm thermal printer, 32 characters wide: the ESC/POS
    variant sent to the printer and the plain-text variant shown as a preview. */
module Templates {
  import opened Types
  import opened Text
  import opened Pricing
  import Seqs

  const LINE_WIDTH: nat := 32

  const ESC: char := '\U{1B}'
  const GS: char := '\U{1D}'

  // The Epson ESC/POS commands the receipt uses.
  const INIT: string := [ESC, '@']
  const ALIGN_LEFT: string := [ESC, 'a', '\0']
  const ALIGN_CENTER: string := [ESC, 'a', '\U{1}']
  const BOLD_ON: string := [ESC, 'E', '\U{1}']
  const BOLD_OFF: string := [ESC, 'E', '\0']
  const DOUBLE_HEIGHT_ON: string := [GS, '!', '\U{10}']
  const DOUBLE_SIZE_ON: string := [GS, '!', '\U{30}']
  const NORMAL_SIZE: string := [GS, '!', '\0']
  const LINE_FEED: string := "\n"
  const CUT_PAPER_PARTIAL: string := [GS, 'V', '\U{1}']

  const HEAVY_RULE: char := '\U{2550}'
  const THANK_YOU: string := "Thank You! Visit Again"

  /** `line(c)`: the character repeated across the full width. */
  function Line(c: char): (r: string)
    ensures |r| == LINE_WIDTH
    ensures forall i :: 0 <= i < |r| ==> r[i] == c
    ensures c != '\n' ==> '\n' !in r
  {
    Repeat(c, LINE_WIDTH)
  }

  /** `padRight`: left-aligns `t` in a field of `w` characters, cutting it when it
      does not fit (a negative width gives the empty string). */
  function PadRight(t: string, w: int): (r: string)
    ensures |r| == if w < 0 then 0 else w
    ensures forall i :: 0 <= i < |r| ==> r[i] == if i < |t| then t[i] else ' '
  {
    if |t| >= w then t[..if w < 0 then 0 else w] else t + Repeat(' ', w - |t|)
  }

  /** `padLeft`: right-aligns `t` in a field of `w` characters; a text that does not
      fit is cut from the right, like `padRight`. */
  function PadLeft(t: string, w: int): (r: string)
    ensures |r| == if w < 0 then 0 else w
    ensures |t| < w ==> forall i :: 0 <= i < |r| ==>
      r[i] == if i < w - |t| then ' ' else t[i - (w - |t|)]
    ensures |t| >= w ==> forall i :: 0 <= i < |r| ==> r[i] == t[i]
    ensures |t| <= w ==> r[w - |t|..] == t
    ensures '\n' !in t ==> '\n' !in r
  {
    if |t| >= w then
      var r := t[..if w < 0 then 0 else w];
      assert forall c :: c in r ==> c in t;
      r
    else
      var pad := Repeat(' ', w - |t|);
      assert (pad + t)[w - |t|..] == t;
      pad + t
  }

  /** The width left for the name once " ×q ₹p" is placed. */
  function NameWidth(q: int, price: int): int {
    LINE_WIDTH - |FormatPrice(price)| - |QuantityText(q)| - 2
  }

  /** `formatItemLine`: the name padded or hard-truncated (no ellipsis) to the
      remaining width, then " ×q ₹p". The line is exactly 32 wide when the quantity
      and price fit in 30 characters. */
  function FormatItemLine(name: string, q: int, price: int): (r: string)
    ensures var tail := " " + QuantityText(q) + " " + FormatPrice(price);
      && |r| >= |tail|
      && r[|r| - |tail|..] == tail
      && |r| - |tail| == (if NameWidth(q, price) < 0 then 0 else NameWidth(q, price))
      && forall i :: 0 <= i < |r| - |tail| ==> r[i] == if i < |name| then name[i] else ' '
    ensures |FormatPrice(price)| + |QuantityText(q)| <= LINE_WIDTH - 2 ==> |r| == LINE_WIDTH
    ensures '\n' !in name ==> '\n' !in r
  {
    var tail := " " + QuantityText(q) + " " + FormatPrice(price);
    var head := PadRight(name, NameWidth(q, price));
    assert (head + tail)[|head|..] == tail;
    head + tail
  }

  /** An item line is 32 wide for every realistic quantity and price. */
  lemma ItemLineWidth(name: string, q: int, price: int)
    requires 0 <= q < Pow10(10) && 0 <= price < Pow10(18)
    ensures |FormatItemLine(name, q, price)| == LINE_WIDTH
  {
    NatToStringLength(q, 10);
    NatToStringLength(price, 18);
  }

  /** `formatAddOnLine`: "  + name", followed by " ×q" exactly when q > 1. */
  function FormatAddOnLine(name: string, q: int): (r: string)
    ensures |r| >= 4 + |name| && r[..4] == "  + " && r[4..4 + |name|] == name
    ensures |r| > 4 + |name| <==> q > 1
    ensures q > 1 ==> r[4 + |name|..] == " " + QuantityText(q)
    ensures '\n' !in name ==> '\n' !in r
  {
    var head := "  + " + name;
    var suffix := QuantitySuffix(q);
    assert (head + suffix)[..|head|] == head && (head + suffix)[|head|..] == suffix;
    head + suffix
  }

  /** An add-on line of the receipt is the add-on's summary entry, indented by two. */
  lemma AddOnLineIsIndentedSummaryEntry(a: OrderItemAddOn)
    ensures FormatAddOnLine(a.name, a.quantity) == "  " + SummaryEntry(a)
  {
    IndentedEntry(a.name, QuantitySuffix(a.quantity));
  }

  /** "  + name" followed by a suffix is "+ name" and the suffix, indented by two. */
  lemma IndentedEntry(name: string, suffix: string)
    ensures "  + " + name + suffix == "  " + ("+ " + name + suffix)
  {
    assert "  + " == "  " + "+ ";
  }

  /** The lines printed under an item: one per add-on with a positive quantity. */
  function AddOnLines(addOns: seq<OrderItemAddOn>): seq<string> {
    Seqs.Map(Seqs.Filter(addOns, Selected), (a: OrderItemAddOn) => FormatAddOnLine(a.name, a.quantity))
  }

  /** The block printed for one order line: the item line, priced at
      base price × quantity, then its add-on lines. */
  function ItemBlock(item: OrderItem): seq<string> {
    [FormatItemLine(FormatItemName(item), item.quantity, item.basePrice * item.quantity)]
      + AddOnLines(item.addOns)
  }

  /** The item section of a receipt: the blocks of all lines, in bill order. */
  function ItemLines(items: seq<OrderItem>): seq<string> {
    Seqs.FlatMap(items, ItemBlock)
  }

  /** The item section follows bill order: it is computed piecewise over any split,
      and a one-line bill gives exactly that line's block. */
  lemma ItemLinesConcat(a: seq<OrderItem>, b: seq<OrderItem>)
    ensures ItemLines(a + b) == ItemLines(a) + ItemLines(b)
    ensures |a| == 1 ==> ItemLines(a) == ItemBlock(a[0])
  {
    Seqs.FlatMapConcat(a, b, ItemBlock);
    if |a| == 1 {
      assert ItemLines(a) == ItemBlock(a[0]) + ItemLines([]);
    }
  }

  /** The item line prints the line total less its add-on charges: add-ons are
      charged only through the TOTAL line. */
  lemma ItemLineOmitsAddOnCharges(item: OrderItem)
    ensures ItemBlock(item)[0]
         == FormatItemLine(FormatItemName(item), item.quantity,
                           CalculateItemTotal(item) - AddOnCharges(item.addOns))
    ensures |ItemBlock(item)| - 1 == |Seqs.Filter(item.addOns, Selected)|
  {
  }

  /** The total line, right-aligned across the full width. */
  function TotalLine(total: int): (r: string)
    ensures |r| == LINE_WIDTH
    ensures var t := "TOTAL: " + FormatPrice(total);
      |t| <= LINE_WIDTH ==> r[LINE_WIDTH - |t|..] == t
    ensures var t := "TOTAL: " + FormatPrice(total);
      |t| <= LINE_WIDTH ==> forall i :: 0 <= i < LINE_WIDTH - |t| ==> r[i] == ' '
    ensures '\n' !in r
  {
    var caption := "TOTAL: ";
    assert '\n' !in caption;
    PadLeft(caption + FormatPrice(total), LINE_WIDTH)
  }

  /** The order-type tag. */
  function OrderTypeTag(t: OrderType): (r: string)
    ensures t == Parcel ==> r == "[ PARCEL ]"
    ensures t == DineIn ==> r == "[ DINE-IN ]"
  {
    if t == Parcel then "[ PARCEL ]" else "[ DINE-IN ]"
  }

  /** Where the tag goes: in bold on its own line of the printer text, and
      right-aligned to column 21 on the preview. */
  lemma OrderTypeTagPlaced(bill: Bill, dateTime: string)
    ensures ReceiptFooter(bill, dateTime)[15..19] == [BOLD_ON, OrderTypeTag(bill.orderType), BOLD_OFF, LINE_FEED]
    ensures var tag, p := OrderTypeTag(bill.orderType), PlainClosing(bill)[0];
      && |p| == 21 && p[21 - |tag|..] == tag
      && forall i :: 0 <= i < 21 - |tag| ==> p[i] == ' '
  {
    TagInFooter(bill, dateTime);
    TagInPreview(bill);
  }

  lemma TagInFooter(bill: Bill, dateTime: string)
    ensures ReceiptFooter(bill, dateTime)[15..19] == [BOLD_ON, OrderTypeTag(bill.orderType), BOLD_OFF, LINE_FEED]
  {
    ThirdOfFour(ReceiptTotals(bill), ReceiptInfo(bill, dateTime), ReceiptTag(bill), ReceiptClosing());
  }

  /** The third of four concatenated sequences sits right after the first two. */
  lemma ThirdOfFour<T>(a: seq<T>, b: seq<T>, c: seq<T>, d: seq<T>)
    ensures (a + b + c + d)[|a| + |b|..|a| + |b| + |c|] == c
  {
  }

  lemma TagInPreview(bill: Bill)
    ensures var tag, p := OrderTypeTag(bill.orderType), PlainClosing(bill)[0];
      && |p| == 21 && p[21 - |tag|..] == tag
      && forall i :: 0 <= i < 21 - |tag| ==> p[i] == ' '
  {
    RightAligned(OrderTypeTag(bill.orderType), 21);
  }

  /** A text no wider than `w`, padded at the start to `w`. */
  lemma RightAligned(t: string, w: nat)
    requires |t| <= w
    ensures var p := PadStart(t, w, ' ');
      |p| == w && p[w - |t|..] == t && forall i :: 0 <= i < w - |t| ==> p[i] == ' '
  {
  }

  /** Printer variant, before the item section. */
  function ReceiptHeader(shopName: string): seq<string> {
    [INIT, ALIGN_CENTER, DOUBLE_SIZE_ON, shopName, NORMAL_SIZE, LINE_FEED,
     Line(HEAVY_RULE), LINE_FEED, ALIGN_LEFT]
  }

  /** Printer variant, after the item section. `dateTime` is the locale-formatted
      creation date and time of the bill. */
  function ReceiptFooter(bill: Bill, dateTime: string): seq<string> {
    ReceiptTotals(bill) + ReceiptInfo(bill, dateTime) + ReceiptTag(bill) + ReceiptClosing()
  }

  /** The total in bold, double height, between two light rules. */
  function ReceiptTotals(bill: Bill): (r: seq<string>)
    ensures |r| == 10
  {
    [Line('-'), LINE_FEED,
     BOLD_ON, DOUBLE_HEIGHT_ON, TotalLine(bill.total), NORMAL_SIZE, BOLD_OFF, LINE_FEED,
     Line('-'), LINE_FEED]
  }

  /** The bill number and the creation date and time, centred. */
  function ReceiptInfo(bill: Bill, dateTime: string): (r: seq<string>)
    ensures |r| == 5
  {
    [ALIGN_CENTER, "Bill No: " + bill.billNumber, LINE_FEED,
     dateTime, LINE_FEED]
  }

  /** The order-type tag in bold. */
  function ReceiptTag(bill: Bill): seq<string> {
    [BOLD_ON, OrderTypeTag(bill.orderType), BOLD_OFF, LINE_FEED]
  }

  /** The heavy rule, the thank-you line, three line feeds and the partial cut. */
  function ReceiptClosing(): seq<string> {
    [Line(HEAVY_RULE), LINE_FEED,
     THANK_YOU, LINE_FEED, LINE_FEED, LINE_FEED,
     CUT_PAPER_PARTIAL]
  }

  /** `generateReceipt`: the ESC/POS text sent to the printer. `dateStr` and `timeStr`
      are the bill's creation date and time as the locale renders them. */
  function GenerateReceipt(bill: Bill, shopName: string, dateStr: string, timeStr: string): (r: string)
    ensures Framed(r, INIT, CUT_PAPER_PARTIAL)
  {
    ReceiptFramed(bill, shopName, dateStr + "  " + timeStr);
    Join(ReceiptHeader(shopName) + WithNewlines(ItemLines(bill.items)) + ReceiptFooter(bill, dateStr + "  " + timeStr), "")
  }

  /** `r` starts with `first` and, separately, ends with `last`. */
  predicate Framed(r: string, first: string, last: string) {
    |r| >= |first| + |last| && r[..|first|] == first && r[|r| - |last|..] == last
  }

  /** The printer pieces joined start with INIT and end with the partial cut. */
  lemma ReceiptFramed(bill: Bill, shopName: string, dateTime: string)
    ensures Framed(Join(ReceiptHeader(shopName) + WithNewlines(ItemLines(bill.items)) + ReceiptFooter(bill, dateTime), ""),
                   INIT, CUT_PAPER_PARTIAL)
  {
    HeaderStartsWithInit(shopName);
    FooterEndsWithCut(bill, dateTime);
    FramedJoin(ReceiptHeader(shopName), WithNewlines(ItemLines(bill.items)), ReceiptFooter(bill, dateTime), INIT, CUT_PAPER_PARTIAL);
  }

  /** The printed receipt is header, item section and footer laid end to end. */
  lemma ReceiptSections(bill: Bill, shopName: string, dateStr: string, timeStr: string)
    ensures GenerateReceipt(bill, shopName, dateStr, timeStr)
         == Join(ReceiptHeader(shopName), "") + Join(WithNewlines(ItemLines(bill.items)), "")
            + Join(ReceiptFooter(bill, dateStr + "  " + timeStr), "")
  {
    var header := ReceiptHeader(shopName);
    var items := WithNewlines(ItemLines(bill.items));
    var footer := ReceiptFooter(bill, dateStr + "  " + timeStr);
    ConcatAppend(header + items, footer);
    ConcatAppend(header, items);
  }

  /** Concatenating pieces whose first ones start with `first` and whose last ones
      end with `last` gives a text that starts and ends the same way. */
  lemma FramedJoin(a: seq<string>, b: seq<string>, c: seq<string>, first: string, last: string)
    requires |Join(a, "")| >= |first| && Join(a, "")[..|first|] == first
    requires |Join(c, "")| >= |last| && Join(c, "")[|Join(c, "")| - |last|..] == last
    ensures var r := Join(a + b + c, "");
      |r| >= |first| + |last| && r[..|first|] == first && r[|r| - |last|..] == last
  {
    ConcatAppend(a + b, c);
    ConcatAppend(a, b);
    OpensAndCloses(Join(a, ""), Join(b, ""), Join(c, ""), first, last);
  }

  /** A text that starts with `first` and one that ends with `last`, with anything
      between them, still start and end that way together. */
  lemma OpensAndCloses(h: string, m: string, f: string, first: string, last: string)
    requires |h| >= |first| && h[..|first|] == first
    requires |f| >= |last| && f[|f| - |last|..] == last
    ensures var r := h + m + f;
      |r| >= |first| + |last| && r[..|first|] == first && r[|r| - |last|..] == last
  {
    var r := h + m + f;
    assert r[..|first|] == h[..|first|];
    assert r[|r| - |last|..] == f[|f| - |last|..];
  }

  /** The printer text opens by initialising the printer. */
  lemma HeaderStartsWithInit(shopName: string)
    ensures var h := Join(ReceiptHeader(shopName), "");
      |h| >= |INIT| && h[..|INIT|] == INIT
  {
    JoinEnds(ReceiptHeader(shopName), "");
  }

  /** The printer text closes with a partial cut. */
  lemma FooterEndsWithCut(bill: Bill, dateTime: string)
    ensures var f := Join(ReceiptFooter(bill, dateTime), "");
      |f| >= |CUT_PAPER_PARTIAL| && f[|f| - |CUT_PAPER_PARTIAL|..] == CUT_PAPER_PARTIAL
  {
    var footer := ReceiptFooter(bill, dateTime);
    var closing := ReceiptClosing();
    assert footer[|footer| - 1] == closing[|closing| - 1] == CUT_PAPER_PARTIAL;
    JoinEnds(footer, "");
  }

  /** Preview variant, before the item section: a blank line, the centred shop name
      and the heavy rule. */
  function PlainHeader(shopName: string): seq<string> {
    ["", PadStart(shopName, (LINE_WIDTH + |shopName|) / 2, ' '), Line(HEAVY_RULE)]
  }

  /** Preview lines after the items: the total between two light rules. */
  function PlainTotals(bill: Bill): seq<string> {
    [Line('-'), TotalLine(bill.total), Line('-')]
  }

  /** Preview lines for the bill number and the creation date and time, centred
      on a 26-column field. */
  function PlainInfo(bill: Bill, dateTime: string): seq<string> {
    [PadStart("Bill No: " + bill.billNumber, (LINE_WIDTH + 20) / 2, ' '),
     PadStart(dateTime, (LINE_WIDTH + 20) / 2, ' ')]
  }

  /** Preview closing lines: the order-type tag, the heavy rule, the thank-you line
      and an empty last line. */
  function PlainClosing(bill: Bill): seq<string> {
    [PadStart(OrderTypeTag(bill.orderType), (LINE_WIDTH + 10) / 2, ' '),
     Line(HEAVY_RULE),
     PadStart(THANK_YOU, (LINE_WIDTH + 22) / 2, ' '),
     ""]
  }

  /** Preview variant, after the item section. */
  function PlainFooter(bill: Bill, dateTime: string): seq<string> {
    PlainTotals(bill) + PlainInfo(bill, dateTime) + PlainClosing(bill)
  }

  /** All lines of the preview. */
  function PlainLines(bill: Bill, shopName: string, dateTime: string): seq<string> {
    PlainHeader(shopName) + ItemLines(bill.items) + PlainFooter(bill, dateTime)
  }

  /** `generatePlainReceipt`: the preview lines joined by newlines. The empty first
      and last lines make it open and close with a line break. */
  function GeneratePlainReceipt(bill: Bill, shopName: string, dateStr: string, timeStr: string): (r: string)
    ensures Framed(r, "\n", "\n")
  {
    PlainLinesBlankEnds(bill, shopName, dateStr + "  " + timeStr);
    BlankEnds(PlainLines(bill, shopName, dateStr + "  " + timeStr));
    Join(PlainLines(bill, shopName, dateStr + "  " + timeStr), "\n")
  }

  /** Joining lines whose first and last are empty gives a text that opens and closes
      with the separator. */
  lemma BlankEnds(lines: seq<string>)
    requires |lines| >= 3 && lines[0] == "" && lines[|lines| - 1] == ""
    ensures Framed(Join(lines, "\n"), "\n", "\n")
  {
    var n := |lines|;
    var r := Join(lines, "\n");
    var a, b := Join(lines[1..], "\n"), Join(lines[..n - 1], "\n");
    assert r == "\n" + a;
    assert a == lines[1] + "\n" + Join(lines[2..], "\n");
    JoinAppend(lines[..n - 1], [lines[n - 1]], "\n");
    assert lines[..n - 1] + [lines[n - 1]] == lines;
    assert r == b + "\n";
    assert r[..1] == "\n";
    assert r[|r| - 1..] == "\n";
  }

  /** The preview's first line and last line are empty. */
  lemma PlainLinesBlankEnds(bill: Bill, shopName: string, dateTime: string)
    ensures var lines := PlainLines(bill, shopName, dateTime);
      |lines| >= 3 && lines[0] == "" && lines[|lines| - 1] == ""
  {
    var closing := PlainClosing(bill);
    FirstAndLast(PlainTotals(bill), PlainInfo(bill, dateTime), closing);
    FirstAndLast(PlainHeader(shopName), ItemLines(bill.items), PlainFooter(bill, dateTime));
  }

  /** The first element of `a + b + c` is the first of `a`, its last the last of `c`. */
  lemma FirstAndLast<T>(a: seq<T>, b: seq<T>, c: seq<T>)
    requires |a| > 0 && |c| > 0
    ensures var s := a + b + c;
      |s| >= |a| + |c| && s[0] == a[0] && s[|s| - 1] == c[|c| - 1]
  {
  }

  /** The printer variant lays its item text, newline-terminated, between header and footer. */
  lemma PrinterItemText(bill: Bill, shopName: string, dateStr: string, timeStr: string)
    requires |bill.items| > 0
    ensures GenerateReceipt(bill, shopName, dateStr, timeStr)
         == Join(ReceiptHeader(shopName), "") + Join(ItemLines(bill.items), "\n") + "\n"
            + Join(ReceiptFooter(bill, dateStr + "  " + timeStr), "")
  {
    ItemLinesConcat(bill.items[..1], bill.items[1..]);
    assert bill.items[..1] + bill.items[1..] == bill.items;
    SpliceLines(ReceiptHeader(shopName), ItemLines(bill.items), ReceiptFooter(bill, dateStr + "  " + timeStr));
  }

  /** The preview lays the same item text between its own header and footer lines. */
  lemma PlainItemText(bill: Bill, shopName: string, dateStr: string, timeStr: string)
    requires |bill.items| > 0
    ensures GeneratePlainReceipt(bill, shopName, dateStr, timeStr)
         == Join(PlainHeader(shopName), "\n") + "\n" + Join(ItemLines(bill.items), "\n") + "\n"
            + Join(PlainFooter(bill, dateStr + "  " + timeStr), "\n")
  {
    var header := PlainHeader(shopName);
    var lines := ItemLines(bill.items);
    var footer := PlainFooter(bill, dateStr + "  " + timeStr);
    JoinAppend(header + lines, footer, "\n");
    JoinAppend(header, lines, "\n");
  }

  /** No text of the bill that reaches a receipt line holds a newline. */
  predicate NewlineFree(bill: Bill, shopName: string, dateTime: string) {
    && '\n' !in shopName && '\n' !in bill.billNumber && '\n' !in dateTime
    && forall i :: 0 <= i < |bill.items| ==>
         && '\n' !in bill.items[i].name
         && forall j :: 0 <= j < |bill.items[i].addOns| ==> '\n' !in bill.items[i].addOns[j].name
  }

  /** The block of an item whose names hold no newline holds none either. */
  lemma ItemBlockNewlineFree(item: OrderItem)
    requires '\n' !in item.name
    requires forall j :: 0 <= j < |item.addOns| ==> '\n' !in item.addOns[j].name
    ensures forall k :: 0 <= k < |ItemBlock(item)| ==> '\n' !in ItemBlock(item)[k]
  {
    var sel := Seqs.Filter(item.addOns, Selected);
    forall k | 0 <= k < |sel|
      ensures '\n' !in sel[k].name
    {
      assert sel[k] in item.addOns;
    }
  }

  lemma ItemLinesNewlineFree(items: seq<OrderItem>)
    requires forall i :: 0 <= i < |items| ==>
      && '\n' !in items[i].name
      && forall j :: 0 <= j < |items[i].addOns| ==> '\n' !in items[i].addOns[j].name
    ensures NoNewlines(ItemLines(items))
  {
    forall i | 0 <= i < |items|
      ensures forall k :: 0 <= k < |ItemBlock(items[i])| ==> '\n' !in ItemBlock(items[i])[k]
    {
      ItemBlockNewlineFree(items[i]);
    }
    Seqs.FlatMapAll(items, ItemBlock, (line: string) => '\n' !in line);
  }

  predicate NoNewlines(lines: seq<string>) {
    forall k :: 0 <= k < |lines| ==> '\n' !in lines[k]
  }

  lemma NoNewlinesConcat(a: seq<string>, b: seq<string>)
    requires NoNewlines(a) && NoNewlines(b)
    ensures NoNewlines(a + b)
  {
  }

  lemma PlainHeaderNewlineFree(shopName: string)
    requires '\n' !in shopName
    ensures NoNewlines(PlainHeader(shopName))
  {
    assert '\n' !in PadStart(shopName, (LINE_WIDTH + |shopName|) / 2, ' ');
  }

  lemma PlainTotalsNewlineFree(bill: Bill)
    ensures NoNewlines(PlainTotals(bill))
  {
    NoNewlinesTriple(Line('-'), TotalLine(bill.total), Line('-'));
  }

  lemma NoNewlinesTriple(x: string, y: string, z: string)
    requires '\n' !in x && '\n' !in y && '\n' !in z
    ensures NoNewlines([x, y, z])
  {
  }

  lemma PlainInfoNewlineFree(bill: Bill, dateTime: string)
    requires '\n' !in bill.billNumber && '\n' !in dateTime
    ensures NoNewlines(PlainInfo(bill, dateTime))
  {
    assert '\n' !in "Bill No: ";
  }

  lemma PlainClosingNewlineFree(bill: Bill)
    ensures NoNewlines(PlainClosing(bill))
  {
    assert '\n' !in OrderTypeTag(bill.orderType);
    assert '\n' !in THANK_YOU;
  }

  lemma PlainFooterNewlineFree(bill: Bill, dateTime: string)
    requires '\n' !in bill.billNumber && '\n' !in dateTime
    ensures NoNewlines(PlainFooter(bill, dateTime))
  {
    PlainTotalsNewlineFree(bill);
    PlainInfoNewlineFree(bill, dateTime);
    PlainClosingNewlineFree(bill);
    NoNewlinesConcat(PlainTotals(bill), PlainInfo(bill, dateTime));
    NoNewlinesConcat(PlainTotals(bill) + PlainInfo(bill, dateTime), PlainClosing(bill));
  }

  /** Splitting the preview at its newlines gives back exactly its lines. */
  lemma PlainReceiptLines(bill: Bill, shopName: string, dateStr: string, timeStr: string)
    requires NewlineFree(bill, shopName, dateStr + "  " + timeStr)
    ensures Split(GeneratePlainReceipt(bill, shopName, dateStr, timeStr), '\n')
         == PlainLines(bill, shopName, dateStr + "  " + timeStr)
  {
    var dateTime := dateStr + "  " + timeStr;
    var header := PlainHeader(shopName);
    var items := ItemLines(bill.items);
    var footer := PlainFooter(bill, dateTime);
    ItemLinesNewlineFree(bill.items);
    PlainHeaderNewlineFree(shopName);
    PlainFooterNewlineFree(bill, dateTime);
    NoNewlinesConcat(header, items);
    NoNewlinesConcat(header + items, footer);
    var lines := header + items + footer;
    assert "\n" == ['\n'];
    SplitJoin(lines, '\n');
  }
}

=== FILE: text.dfy ===
/** The JavaScript string built-ins the billing code relies on, over `seq<char>`:
    `repeat`, `toString` of an integer, `padStart`, `join` and `split`.
    A `char` is one Unicode scalar value, whereas JavaScript measures strings in
    UTF-16 code units; the two agree on every literal the code uses, since all of
    them lie in the Basic Multilingual Plane. */
module Text {

  /** `c.repeat(n)`. */
  function Repeat(c: char, n: nat): (r: string)
    ensures |r| == n
    ensures forall i :: 0 <= i < n ==> r[i] == c
  {
    seq(n, _ => c)
  }

  predicate IsDigit(c: char) {
    '0' <= c <= '9'
  }

  predicate AllDigits(s: string) {
    forall i :: 0 <= i < |s| ==> IsDigit(s[i])
  }

  function DigitChar(d: nat): (c: char)
    requires d < 10
    ensures IsDigit(c)
  {
    ('0' as int + d) as char
  }

  /** Decimal value of a string of digits, read most significant digit first. */
  function DigitsValue(s: string): nat
    requires AllDigits(s)
  {
    if |s| == 0 then 0
    else 10 * DigitsValue(s[..|s| - 1]) + (s[|s| - 1] as int - '0' as int)
  }

  /** `n.toString()` for a natural number: decimal digits without leading zeros,
      which read back as `n`. */
  function NatToString(n: nat): (r: string)
    ensures 1 <= |r|
    ensures AllDigits(r)
    ensures r[0] == '0' ==> n == 0 && |r| == 1
    ensures DigitsValue(r) == n
  {
    if n < 10 then [DigitChar(n)]
    else
      var s := NatToString(n / 10);
      var r := s + [DigitChar(n % 10)];
      assert r[..|r| - 1] == s;
      r
  }

  /** `n.toString()` for any integer: a minus sign, then the digits of |n|. */
  function IntToString(n: int): (r: string)
    ensures n >= 0 ==> 1 <= |r| && AllDigits(r) && DigitsValue(r) == n && (r[0] == '0' ==> |r| == 1)
    ensures n < 0 ==> |r| >= 2 && r[0] == '-' && AllDigits(r[1..]) && DigitsValue(r[1..]) == -n && r[1] != '0'
    ensures '\n' !in r
  {
    if n < 0 then "-" + NatToString(-n) else NatToString(n)
  }

  function Pow10(k: nat): nat {
    if k == 0 then 1 else 10 * Pow10(k - 1)
  }

  /** A number below 10^k has at most k digits. */
  lemma {:induction false} NatToStringLength(n: nat, k: nat)
    requires 1 <= k && n < Pow10(k)
    ensures |NatToString(n)| <= k
  {
    if n >= 10 {
      assert k >= 2;
      NatToStringLength(n / 10, k - 1);
    }
  }

  /** Leading zeros do not change the value of a digit string. */
  lemma {:induction false} LeadingZeros(k: nat, s: string)
    requires AllDigits(s)
    ensures AllDigits(Repeat('0', k) + s)
    ensures DigitsValue(Repeat('0', k) + s) == DigitsValue(s)
    decreases |s|, k
  {
    var z := Repeat('0', k);
    if |s| == 0 {
      assert z + s == z;
      if k > 0 {
        assert z[..k - 1] == Repeat('0', k - 1) + [];
        LeadingZeros(k - 1, []);
      }
    } else {
      var s' := s[..|s| - 1];
      assert (z + s)[..|z + s| - 1] == z + s';
      LeadingZeros(k, s');
    }
  }

  /** `s.padStart(n, c)` with a one-character filler: never truncates. */
  function PadStart(s: string, n: int, c: char): (r: string)
    ensures |r| == if n <= |s| then |s| else n
    ensures r[|r| - |s|..] == s
    ensures forall i :: 0 <= i < |r| - |s| ==> r[i] == c
    ensures c != '\n' && '\n' !in s ==> '\n' !in r
  {
    if n <= |s| then s else Repeat(c, n - |s|) + s
  }

  /** `parts.join(sep)`. */
  function Join(parts: seq<string>, sep: string): string
  {
    if |parts| == 0 then ""
    else if |parts| == 1 then parts[0]
    else parts[0] + sep + Join(parts[1..], sep)
  }

  /** Joining two non-empty lists puts one separator between their joins. */
  lemma {:induction false} JoinAppend(a: seq<string>, b: seq<string>, sep: string)
    requires |a| > 0 && |b| > 0
    ensures Join(a + b, sep) == Join(a, sep) + sep + Join(b, sep)
  {
    if |a| == 1 {
      assert (a + b)[1..] == b;
    } else {
      assert (a + b)[1..] == a[1..] + b;
      JoinAppend(a[1..], b, sep);
    }
  }

  /** With the empty separator, joining is plain concatenation, empty lists included. */
  lemma ConcatAppend(a: seq<string>, b: seq<string>)
    ensures Join(a + b, "") == Join(a, "") + Join(b, "")
  {
    if |a| == 0 {
      assert a + b == b;
    } else if |b| == 0 {
      assert a + b == a;
    } else {
      JoinAppend(a, b, "");
    }
  }

  /** A join starts with its first part and ends with its last. */
  lemma {:induction false} JoinEnds(parts: seq<string>, sep: string)
    requires |parts| > 0
    ensures var j := Join(parts, sep);
      && |j| >= |parts[0]| && j[..|parts[0]|] == parts[0]
      && |j| >= |parts[|parts| - 1]| && j[|j| - |parts[|parts| - 1]|..] == parts[|parts| - 1]
  {
    if |parts| > 1 {
      JoinEnds(parts[1..], sep);
      var j := Join(parts, sep);
      var rest := Join(parts[1..], sep);
      assert j == parts[0] + sep + rest;
      assert j[..|parts[0]|] == parts[0];
      assert j[|j| - |rest|..] == rest;
    }
  }

  /** Each line followed by its own newline part, as a printer stream emits them. */
  function WithNewlines(lines: seq<string>): (r: seq<string>)
    ensures |r| == 2 * |lines|
  {
    if |lines| == 0 then [] else [lines[0], "\n"] + WithNewlines(lines[1..])
  }

  /** Concatenating newline-terminated lines is joining them with newlines and adding
      one final newline. */
  lemma {:induction false} NewlinesAreJoinedLines(lines: seq<string>)
    requires |lines| > 0
    ensures Join(WithNewlines(lines), "") == Join(lines, "\n") + "\n"
  {
    var w := WithNewlines(lines);
    if |lines| == 1 {
      assert w == [lines[0], "\n"];
      assert w[1..] == ["\n"];
    } else {
      NewlinesAreJoinedLines(lines[1..]);
      var head: seq<string> := [lines[0], "\n"];
      assert w == head + WithNewlines(lines[1..]);
      ConcatAppend(head, WithNewlines(lines[1..]));
      assert head[1..] == ["\n"];
    }
  }

  /** Newline-terminated lines spliced between two concatenations. */
  lemma SpliceLines(front: seq<string>, lines: seq<string>, back: seq<string>)
    requires |lines| > 0
    ensures Join(front + WithNewlines(lines) + back, "")
         == Join(front, "") + Join(lines, "\n") + "\n" + Join(back, "")
  {
    ConcatAppend(front + WithNewlines(lines), back);
    ConcatAppend(front, WithNewlines(lines));
    NewlinesAreJoinedLines(lines);
  }

  /** Index of the first `c` in `s`, or -1 (`indexOf`). */
  function IndexOf(s: string, c: char): (r: int)
    ensures -1 <= r < |s|
    ensures r == -1 <==> c !in s
    ensures 0 <= r ==> s[r] == c && c !in s[..r]
  {
    if |s| == 0 then -1
    else if s[0] == c then 0
    else
      var k := IndexOf(s[1..], c);
      assert s[1..][..k + 1] == s[1..k + 2];
      if k == -1 then -1 else k + 1
  }

  /** The first `c` in `a + [c] + b` is the one after `a` when `a` holds none. */
  lemma IndexOfAfter(a: string, c: char, b: string)
    requires c !in a
    ensures IndexOf(a + [c] + b, c) == |a|
  {
    var s := a + [c] + b;
    assert s[|a|] == c;
    assert s[..|a|] == a;
  }

  /** `s.split(c)` for a one-character separator. */
  function Split(s: string, c: char): (r: seq<string>)
    ensures 1 <= |r|
    decreases |s|
  {
    var i := IndexOf(s, c);
    if i == -1 then [s] else [s[..i]] + Split(s[i + 1..], c)
  }

  /** Splitting a join at its one-character separator gives the parts back,
      provided no part contains that character. */
  lemma {:induction false} SplitJoin(parts: seq<string>, c: char)
    requires 1 <= |parts|
    requires forall i :: 0 <= i < |parts| ==> c !in parts[i]
    ensures Split(Join(parts, [c]), c) == parts
  {
    if |parts| > 1 {
      var rest := Join(parts[1..], [c]);
      var s := parts[0] + [c] + rest;
      assert s[..|parts[0]|] == parts[0];
      assert s[|parts[0]| + 1..] == rest;
      IndexOfAfter(parts[0], c, rest);
      SplitJoin(parts[1..], c);
      assert [parts[0]] + parts[1..] == parts;
    }
  }
}

=== FILE: types.dfy ===
/** The records of the billing app: catalog entries, order lines, orders and bills.
    Amounts and quantities are integers (every catalog price is a whole number of rupees). */
module Types {

  datatype Option<+T> = None | Some(value: T)

  datatype Category = Biryani | Beverages | Snacks

  datatype OrderType = Parcel | DineIn

  datatype Portion = Full | Half

  /** A catalog entry. `halfPrice` is the optional half-portion price. */
  datatype MenuItem = MenuItem(
    id: string,
    name: string,
    category: Category,
    fullPrice: int,
    halfPrice: Option<int>,
    hasPortions: bool,
    hasAddOns: bool)

  /** A catalog add-on and the menu-item ids it may be attached to. */
  datatype AddOn = AddOn(id: string, name: string, price: int, applicableTo: seq<string>)

  /** An add-on as selected on one order line; the price is captured at selection time. */
  datatype OrderItemAddOn = OrderItemAddOn(id: string, name: string, price: int, quantity: int)

  /** One line of an order. `basePrice` is the unit price already resolved for the portion. */
  datatype OrderItem = OrderItem(
    id: string,
    menuItemId: string,
    name: string,
    category: Category,
    portion: Option<Portion>,
    quantity: int,
    basePrice: int,
    addOns: seq<OrderItemAddOn>)

  datatype Order = Order(items: seq<OrderItem>, orderType: OrderType, subtotal: int, total: int)

  /** A persisted bill; `id` is the database row id, absent before saving. */
  datatype Bill = Bill(
    id: Option<int>,
    billNumber: string,
    orderType: OrderType,
    items: seq<OrderItem>,
    subtotal: int,
    total: int,
    createdAt: string)
}
